=== FILE: README.md ===
# Google Cloud and Apigee alert relays to Microsoft Teams

This project is a Dafny model of two small alert relays. It proves the properties the relays promise.

**The Cloud Function** is `google-cloud-msteams-alert-notifier/main.py`. It receives a Cloud Monitoring incident through a Pub/Sub message and proceeds as follows:

- it decodes and parses the message, and gives up if parsing fails;
- it writes one audit record of the parsed payload;
- when the incident's state reads "open", it renders an Adaptive Card and posts it to an MS Teams webhook;
- a failed post is only logged.

The model covers this whole flow. It also covers the `log()` helper:

- the level comes from LOG_LEVEL, and the fallback is INFO;
- each call attaches one more Cloud Logging handler, so repeated calls write duplicate copies.

**The Apigee policy** is `apigee-msteams-alert-notifier/msteams-alert-integration.js`. It does three things:

- it formats a list of threshold violations as markdown;
- it builds an Office 365 connector MessageCard from the alert;
- it stores the card in a flow variable, during the proxy request flow only.

Modules:

- `Wrappers`: `Option` and `Result`.
- `Json`: the parsed JSON value and the Python operations the function applies to it. These are `dict.get` with a default, truthiness, `casefold`, `upper`, and f-string interpolation. Interpolation keeps `str()` of a non-string value symbolic.
- `Logging`: the LOG_LEVEL lookup and one `log()` call.
- `Card`: the Adaptive Card tree and a pre-order walk over its elements.
- `Render`: the card that `post_data_to_teams` builds, one function per template element.
- `RenderFacts`: what every rendered card satisfies.
- `Handler`: `alert_notification_handler` and the delivery `try` block. The result is a trace of effects plus how the invocation ended.
- `HandlerFacts`: what every invocation satisfies.
- `Apigee`: the violation formatter, written as a loop, and the MessageCard builder.

Points about the code that a reader may not expect:

- **A missing or malformed incident raises.** `data["incident"]` raises KeyError when the key is missing. It raises TypeError when the payload is not an object. `.get`/`.casefold` raise AttributeError when the incident or its state has the wrong type.
- **Only 4xx/5xx answers count as failed delivery.** `raise_for_status` raises only for statuses 400-599, so a 1xx or 3xx answer is logged as delivered.
- **Log levels.** `log()` writes at the configured level whatever `type` it is given, so the parse error is not logged at ERROR. The level is looked up with `getattr(logging, NAME)`. That accepts NOTSET, DEBUG, INFO, WARNING, WARN, ERROR, CRITICAL and FATAL; `WARN` selects WARNING and `FATAL` selects CRITICAL.
- **The payload dump.** It is written only when LOG_LEVEL is exactly `DEBUG`. A value of `debug` selects the DEBUG level but writes no dump.

## Model

| member | source | states |
|---|---|---|
| Json.CaseFoldOpenIff | google-cloud-msteams-alert-notifier/main.py:368 | `state.casefold() == 'open'` holds for exactly the sixteen letter-case spellings of "open" and for no other string |
| Logging.ParseLevel | google-cloud-msteams-alert-notifier/main.py:37-38 | an unset LOG_LEVEL selects INFO; so does a value whose upper-cased form names no level. A value whose upper-cased form is one of the eight level names selects that name's level, so `warn` selects WARNING and `fatal` selects CRITICAL |
| Logging.ParseLevelNameRoundTrip | google-cloud-msteams-alert-notifier/main.py:37-38 | every level is selected by its own name, written in any letter case |
| Logging.ParseLevelIgnoresCase | google-cloud-msteams-alert-notifier/main.py:38 | two LOG_LEVEL values with the same upper-case form select the same level |
| Logging.Log | google-cloud-msteams-alert-notifier/main.py:32-42 | a record is written at the configured level, not the requested `type`; the logger afterwards holds one more handler, and every attached handler writes the record |
| Render.HintsOf | google-cloud-msteams-alert-notifier/main.py:81-83 | `wrap`, `separator` and `isVisible` are the record's values when present, else true, true and false |
| Render.Field | google-cloud-msteams-alert-notifier/main.py:119 | an incident field is the record's value when the incident has the key, else "Unknown" |
| Render.RenderCard | google-cloud-msteams-alert-notifier/main.py:86-300 | no contract of its own. The card it builds is described by the RenderFacts rows below: ElementsOfCard, FixedEnvelope, ShowsExactlyTemplateTexts, FactsPairTitlesWithFields, TextBlocksInOrder, TogglesTargetCardElements and the hint rows |
| RenderFacts.ElementsOfCard | google-cloud-msteams-alert-notifier/main.py:96-296 | walking the rendered card visits exactly the template's elements, in document order |
| RenderFacts.FixedEnvelope | google-cloud-msteams-alert-notifier/main.py:86-300 | for every record: type "message", exactly one attachment of type `application/vnd.microsoft.card.adaptive`, and a sixth body row holding two OpenUrl buttons, the second pointing at RUNBOOK_URL |
| RenderFacts.WrapOnEveryTextBlock | google-cloud-msteams-alert-notifier/main.py:101-173 | every TextBlock of the card carries the record's `wrap` hint |
| RenderFacts.SeparatorEverywhere | google-cloud-msteams-alert-notifier/main.py:111-160 | exactly four elements of the card set a separator, and every separator set is the record's `separator` hint |
| RenderFacts.SeparatorRows | google-cloud-msteams-alert-notifier/main.py:111-160 | the four containers that set it are the header row, the policy row, the threshold box inside the condition row, and the toggle row |
| RenderFacts.CollapsiblesShareVisibility | google-cloud-msteams-alert-notifier/main.py:223-267 | `chevronUp`, `moreDetails` and `moreDetailsWrapper` each set a visibility, they are the only elements that do, and all three use the same `isVisible` hint |
| RenderFacts.TogglesTargetCardElements | google-cloud-msteams-alert-notifier/main.py:187-219 | the card's toggle actions, listed in document order, are exactly two: the expand button targeting `moreDetails`, `moreDetailsWrapper`, `chevronUp`, `chevronDown`, then the collapse button targeting the same list with the last two swapped |
| RenderFacts.ToggleTargetsExist | google-cloud-msteams-alert-notifier/main.py:189-267 | each id a toggle targets is carried by some element of the card, and by no two positions of its element walk |
| RenderFacts.ShowsExactlyTemplateTexts | google-cloud-msteams-alert-notifier/main.py:96-296 | a text appears on the card if and only if it is one of the template's texts: the title, the eleven marked incident fields, "More Details" and the runbook link |
| RenderFacts.FieldsDefaultToUnknown | google-cloud-msteams-alert-notifier/main.py:119-280 | each of the eleven incident fields is displayed with its own mark (policy name `**`, condition name `_`, others bare). It shows the record's value, or "Unknown" when that one key is missing |
| RenderFacts.PolicyNameShownBold | google-cloud-msteams-alert-notifier/main.py:119 | a string policy name is displayed as `**name**` |
| RenderFacts.FactsPairTitlesWithFields | google-cloud-msteams-alert-notifier/main.py:143-258 | the card's facts, in document order, are exactly seven. Each title shows its own field: Threshold, Observed Value, Project, Project Num, Incident Id, State and Severity show `threshold_value`, `observed_value`, `scoping_project_id`, `scoping_project_number`, `incident_id`, `state` and `severity` |
| RenderFacts.TextBlocksInOrder | google-cloud-msteams-alert-notifier/main.py:100-173 | the card's text blocks are, in order, the title, the bold policy name, the italic condition name, the summary and "More Details". The policy name is the line of the second body row; the condition name and summary are the first two lines of the third |
| Handler.Outcome | google-cloud-msteams-alert-notifier/main.py:305 | with MS_TEAMS_URL unset the post fails with the MissingSchema error; otherwise it meets the webhook's answer |
| Handler.Deliver | google-cloud-msteams-alert-notifier/main.py:303-309 | the card is posted once, and the follow-up record is at ERROR exactly when the post raised a RequestException |
| Handler.PostDataToTeams | google-cloud-msteams-alert-notifier/main.py:73-309 | the card rendered from the record with RUNBOOK_URL is posted to MS_TEAMS_URL. The post is followed by the success line or by the failure line carrying the error text |
| Handler.DataString | google-cloud-msteams-alert-notifier/main.py:333-339 | when decoding succeeds, the decoded message itself is the text handed to the parser; when base64 or UTF-8 decoding fails, that text is the placeholder "error decoding payload" |
| Handler.Dispatch | google-cloud-msteams-alert-notifier/main.py:365-371 | no contract of its own. Its behaviour is stated by HandlerFacts.PostsExactlyWhenOpen, ClosedStateLogsClosed, NullIncidentIsIgnored and MalformedPayloadRaises, through HandlerFacts.DispatchShape |
| Handler.Dump | google-cloud-msteams-alert-notifier/main.py:347-348 | the payload is logged, interpolated after "Pub/Sub Alert Payload: ", only when LOG_LEVEL is exactly "DEBUG" |
| Handler.Handle | google-cloud-msteams-alert-notifier/main.py:326-371 | every invocation first logs its entry at the configured level, attaches at least one handler, and raises only after a successful parse |
| HandlerFacts.PostsExactlyWhenOpen | google-cloud-msteams-alert-notifier/main.py:365-371 | a card is posted if and only if the payload parses, its incident is an object, and the state is a string spelling "open" in some letter case |
| HandlerFacts.DeliveryNeverRaises | google-cloud-msteams-alert-notifier/main.py:303-309 | when a card is posted the invocation returns normally. The last record is the caught error for an unreachable webhook, a missing URL or a 4xx/5xx answer, and the success line otherwise |
| HandlerFacts.AuditOnceBeforePost | google-cloud-msteams-alert-notifier/main.py:351-357 | a parsed payload yields exactly one audit record `{event_id, timestamp, data}`, whatever the state, and it precedes every post |
| HandlerFacts.ParseFailureAborts | google-cloud-msteams-alert-notifier/main.py:340-345 | a parse failure logs the parser's message and returns, with no audit record and no post |
| HandlerFacts.DecodeFailureAborts | google-cloud-msteams-alert-notifier/main.py:333-345 | a decode failure substitutes "error decoding payload", which any parser rejecting text that cannot start a JSON value rejects, so it ends in the same abort |
| HandlerFacts.LogRecordsFollowConfiguredLevel | google-cloud-msteams-alert-notifier/main.py:32-42 | every `log()` record of an invocation is at the level LOG_LEVEL selects, and the records are written by `n+1`, `n+2`, ... handlers in turn |
| HandlerFacts.PayloadDumpOnlyForDebug | google-cloud-msteams-alert-notifier/main.py:347-348 | the payload dump is among the records if and only if LOG_LEVEL is exactly "DEBUG" |
| HandlerFacts.ClosedStateLogsClosed | google-cloud-msteams-alert-notifier/main.py:368-371 | a missing, null, empty, false or zero state, or a string other than "open", posts nothing; the last record is the "closed" message |
| HandlerFacts.NullIncidentIsIgnored | google-cloud-msteams-alert-notifier/main.py:365 | a null incident ends the invocation right after the audit record, with neither a post nor the "closed" message |
| HandlerFacts.MalformedPayloadRaises | google-cloud-msteams-alert-notifier/main.py:365-368 | a non-object payload raises TypeError and a missing incident KeyError. A non-null, non-object incident, or a truthy non-string state, raises AttributeError. Each happens after the audit record, with nothing posted |
| Apigee.FormatViolations | apigee-msteams-alert-notifier/msteams-alert-integration.js:12-26 | the loop's text is the blocks of the violations in input order; a missing or empty list gives exactly "No threshold violations found." |
| Apigee.AppendsBlock | apigee-msteams-alert-notifier/msteams-alert-integration.js:16-22 | one iteration appends seven lines, labelled Proxy, Region, Status Code, Trigger Value, Duration, Threshold Value and Violation, in that order. Each value is in backticks; the first six lines end in `<br>` and the last in `<br><br>` |
| Apigee.FormatAppend | apigee-msteams-alert-notifier/msteams-alert-integration.js:14-23 | for non-empty lists, the text of `a ++ b` is the text of `a` followed by the text of `b` |
| Apigee.FormatIsBlocksInOrder | apigee-msteams-alert-notifier/msteams-alert-integration.js:14-23 | the block of entry `i` sits between the text of the entries before it and the text of those after it |
| Apigee.BuildPayload | apigee-msteams-alert-notifier/msteams-alert-integration.js:30-54 | the card is a MessageCard with theme color FF4300 and one markdown section holding two facts; its summary equals the section's title |
| Apigee.PayloadCarriesAlert | apigee-msteams-alert-notifier/msteams-alert-integration.js:33-51 | the card can be read back: name after "Alert: ", organisation after "Organization: ", Description then Alert Time as the facts, the formatted violations, then the encoded runbook link in `[Operations Runbook](...)` |
| Apigee.RunPolicy | apigee-msteams-alert-notifier/msteams-alert-integration.js:1-58 | outside PROXY_REQ_FLOW the flow variables are untouched, and an unparsable request body in that flow makes the policy throw |
| Apigee.PolicySetsOnlyPayload | apigee-msteams-alert-notifier/msteams-alert-integration.js:1-58 | in PROXY_REQ_FLOW only `teamsPayload` is set, to the serialised card; every other variable keeps its value |

## Left out

- Cloud Logging, Secret Manager (`get_sa_key`), `configparser`, and the HTTP transport are I/O. The audit write, the log records and the post are events of a trace. Environment values are a `Config` parameter. The webhook's answer is a parameter.
- The `http_client` debug level, `logging.basicConfig()` and the urllib3 logger set-up at the start of `post_data_to_teams` are left out. They configure diagnostics only.
- `PROJECT_ID` and `skip_incident_creation` are read or set but never used.
- Base64 and UTF-8 decoding are an `Option<string>`, where a failure is `None`. `json.loads` is a parameter. The second `json.loads` in `post_data_to_teams` parses the same text, so the model hands the already-parsed record to it.
- JSON numbers are integers; floats and `NaN` are not modelled. Python's `str()` of a non-string value in an f-string stays symbolic, as `Text.Fmt`.
- `Json.CaseFold` and `Json.Upper` treat ASCII letters only. Full Unicode case folding and upper-casing, such as `'ß'.casefold() == 'ss'`, are not modelled.
- Logging.ParseLevel: the upper-cased name of a non-level attribute of `logging`, such as `BASIC_FORMAT`, would make `setLevel` raise. Here every name other than a level selects INFO.
- Logging.Log: the entry is recorded even when Python would drop it. With LOG_LEVEL=NOTSET, `log(0, message)` writes nothing. `Logger.isEnabledFor` rejects level 0 first, because the `logging.disable` threshold (0) is at or above it. It does so whatever the root logger's level. Propagation to the root logger's stream handler is not modelled either.
- Handler.Deliver: `requests.post` is called without a timeout. A post that never returns, ending only when the platform stops the invocation and writing neither the success nor the failure line, is not modelled; the answer parameter always arrives.
- Handler.Deliver: the success and failure lines go through the root logger. They are recorded as calls. Whether the root logger's threshold (WARNING by default) drops the INFO success line is not modelled.
- Handler.Outcome: the MissingSchema text is the one current `requests` releases use. The text of other transport errors and of `HTTPError` is part of the answer parameter.
- Apigee: `context.getVariable`/`setVariable` are a map of flow variables. `JSON.parse`, `JSON.stringify` and `encodeURI` are parameters. A thrown `URIError` is not modelled.
- Apigee.Alert: each JavaScript value stands for its string conversion, and `undefined` prints as "undefined". A violation list that is a non-array truthy value, such as a string, is not modelled. Neither is a `null` entry inside the list, where the policy throws. A request body that parses to `null`, a missing body included, also makes the policy throw when it reads `alertName`; `RunPolicy` takes that case as a Failure `alert`.

=== FILE: apigee.dfy ===
/** The Apigee JavaScript policy that turns an alert notification into an
    Office 365 connector MessageCard: threshold violations are formatted as a
    markdown text blob, the card is assembled from the alert's fields, and the
    result is stored in the `teamsPayload` flow variable during the proxy
    request flow only. */
module Apigee {
  import opened Wrappers

  /** A JavaScript value as string concatenation sees it: `None` is
      `undefined`, which `+` turns into the text "undefined". Other values
      stand for their string conversion. */
  type JsValue = Option<string>

  function Show(v: JsValue): (s: string)
    ensures v.None? ==> s == "undefined"
    ensures v.Some? ==> s == v.value
  {
    v.GetOr("undefined")
  }

  /** One entry of `thresholdViolationsFormatted`. */
  datatype Violation = Violation(
    proxy: JsValue, region: JsValue, statusCode: JsValue, triggerValue: JsValue,
    duration: JsValue, thresholdValue: JsValue, violation: JsValue)

  /** The alert notification body, as far as the policy reads it. A missing,
      null or otherwise falsy violation list is `None`. */
  datatype Alert = Alert(
    alertName: JsValue, org: JsValue, description: JsValue, alertTime: JsValue,
    playbook: JsValue, violations: Option<seq<Violation>>)

  const NoViolations := "No threshold violations found."

  // ---------------------------------------------------------------------
  // The violation formatter
  // ---------------------------------------------------------------------

  /** One labelled line: the label in bold, the value in backticks, then the break. */
  function Line(name: string, value: string, end: string): string {
    "**" + name + "**: `" + value + "`" + end
  }

  /** The block of one violation: seven labelled lines in the order Proxy,
      Region, Status Code, Trigger Value, Duration, Threshold Value,
      Violation; the first six end in one `<br>`, the last in two. */
  function Block(v: Violation): string {
    Line("Proxy", Show(v.proxy), "<br>")
    + (Line("Region", Show(v.region), "<br>")
    + (Line("Status Code", Show(v.statusCode), "<br>")
    + (Line("Trigger Value", Show(v.triggerValue), "<br>")
    + (Line("Duration", Show(v.duration), "<br>")
    + (Line("Threshold Value", Show(v.thresholdValue), "<br>")
    + Line("Violation", Show(v.violation), "<br><br>"))))))
  }

  /** The renderings of the entries of a list, one after the other in list order. */
  function Concat(vs: seq<Violation>, render: Violation -> string): string {
    if vs == [] then "" else Concat(vs[..|vs| - 1], render) + render(vs[|vs| - 1])
  }

  /** The text the formatter produces, given the value of `thresholdViolationsFormatted`. */
  function Format(violations: Option<seq<Violation>>): string {
    if violations.Some? && |violations.value| > 0 then Concat(violations.value, Block) else NoViolations
  }

  /** The `thresholdViolationsFormatted` loop as written: seven `+=` statements per violation. */
  method FormatViolations(violations: Option<seq<Violation>>) returns (formatted: string)
    ensures formatted == Format(violations)
    ensures violations.None? || violations.value == [] ==> formatted == NoViolations
  {
    formatted := "";
    if violations.Some? && |violations.value| > 0 {
      var vs := violations.value;
      for i := 0 to |vs|
        invariant formatted == Concat(vs[..i], Block)
      {
        var v := vs[i];
        ghost var before := formatted;
        formatted := formatted + "**Proxy**: `" + Show(v.proxy) + "`<br>";
        formatted := formatted + "**Region**: `" + Show(v.region) + "`<br>";
        formatted := formatted + "**Status Code**: `" + Show(v.statusCode) + "`<br>";
        formatted := formatted + "**Trigger Value**: `" + Show(v.triggerValue) + "`<br>";
        formatted := formatted + "**Duration**: `" + Show(v.duration) + "`<br>";
        formatted := formatted + "**Threshold Value**: `" + Show(v.thresholdValue) + "`<br>";
        formatted := formatted + "**Violation**: `" + Show(v.violation) + "`<br><br>";
        AppendsBlock(before, v);
        ConcatSnoc(vs, i, Block);
      }
      assert vs[..|vs|] == vs;
    } else {
      formatted := NoViolations;
    }
  }

  /** Each statement of the loop body appends one `Line`. */
  lemma SourceLines(v: Violation)
    ensures "**Proxy**: `" + Show(v.proxy) + "`<br>" == Line("Proxy", Show(v.proxy), "<br>")
    ensures "**Region**: `" + Show(v.region) + "`<br>" == Line("Region", Show(v.region), "<br>")
    ensures "**Status Code**: `" + Show(v.statusCode) + "`<br>" == Line("Status Code", Show(v.statusCode), "<br>")
    ensures "**Trigger Value**: `" + Show(v.triggerValue) + "`<br>" == Line("Trigger Value", Show(v.triggerValue), "<br>")
    ensures "**Duration**: `" + Show(v.duration) + "`<br>" == Line("Duration", Show(v.duration), "<br>")
    ensures "**Threshold Value**: `" + Show(v.thresholdValue) + "`<br>" == Line("Threshold Value", Show(v.thresholdValue), "<br>")
    ensures "**Violation**: `" + Show(v.violation) + "`<br><br>" == Line("Violation", Show(v.violation), "<br><br>")
  {
    LineOf("**Proxy**: `", "Proxy", Show(v.proxy), "`<br>", "<br>");
    LineOf("**Region**: `", "Region", Show(v.region), "`<br>", "<br>");
    LineOf("**Status Code**: `", "Status Code", Show(v.statusCode), "`<br>", "<br>");
    LineOf("**Trigger Value**: `", "Trigger Value", Show(v.triggerValue), "`<br>", "<br>");
    LineOf("**Duration**: `", "Duration", Show(v.duration), "`<br>", "<br>");
    LineOf("**Threshold Value**: `", "Threshold Value", Show(v.thresholdValue), "`<br>", "<br>");
    LineOf("**Violation**: `", "Violation", Show(v.violation), "`<br><br>", "<br><br>");
  }

  /** The seven statements of one loop iteration append the violation's block. */
  lemma AppendsBlock(before: string, v: Violation)
    ensures before
      + "**Proxy**: `" + Show(v.proxy) + "`<br>"
      + "**Region**: `" + Show(v.region) + "`<br>"
      + "**Status Code**: `" + Show(v.statusCode) + "`<br>"
      + "**Trigger Value**: `" + Show(v.triggerValue) + "`<br>"
      + "**Duration**: `" + Show(v.duration) + "`<br>"
      + "**Threshold Value**: `" + Show(v.thresholdValue) + "`<br>"
      + "**Violation**: `" + Show(v.violation) + "`<br><br>"
      == before + Block(v)
  {
    SourceLines(v);
    Regroup(before,
      "**Proxy**: `", Show(v.proxy), "`<br>",
      "**Region**: `", Show(v.region), "`<br>",
      "**Status Code**: `", Show(v.statusCode), "`<br>",
      "**Trigger Value**: `", Show(v.triggerValue), "`<br>",
      "**Duration**: `", Show(v.duration), "`<br>",
      "**Threshold Value**: `", Show(v.thresholdValue), "`<br>",
      "**Violation**: `", Show(v.violation), "`<br><br>");
  }

  /** Seven three-part appends, regrouped line by line. */
  lemma Regroup(a: string,
                h1: string, x1: string, t1: string, h2: string, x2: string, t2: string,
                h3: string, x3: string, t3: string, h4: string, x4: string, t4: string,
                h5: string, x5: string, t5: string, h6: string, x6: string, t6: string,
                h7: string, x7: string, t7: string)
    ensures a + h1 + x1 + t1 + h2 + x2 + t2 + h3 + x3 + t3 + h4 + x4 + t4
              + h5 + x5 + t5 + h6 + x6 + t6 + h7 + x7 + t7
         == a + ((h1 + x1 + t1) + ((h2 + x2 + t2) + ((h3 + x3 + t3) + ((h4 + x4 + t4)
              + ((h5 + x5 + t5) + ((h6 + x6 + t6) + (h7 + x7 + t7)))))))
  {
  }

  lemma LineOf(head: string, name: string, value: string, tail: string, end: string)
    requires head == "**" + name + "**: `" && tail == "`" + end
    ensures head + value + tail == Line(name, value, end)
  {
  }

  /** Rendering a list entry by entry distributes over concatenation of the list. */
  lemma {:induction false} ConcatAppend(a: seq<Violation>, b: seq<Violation>, render: Violation -> string)
    ensures Concat(a + b, render) == Concat(a, render) + Concat(b, render)
    decreases |b|
  {
    if b == [] {
      assert a + b == a;
    } else {
      var c := a + b;
      assert c[..|c| - 1] == a + b[..|b| - 1];
      assert c[|c| - 1] == b[|b| - 1];
      ConcatAppend(a, b[..|b| - 1], render);
    }
  }

  lemma ConcatSnoc(vs: seq<Violation>, i: nat, render: Violation -> string)
    requires i < |vs|
    ensures Concat(vs[..i + 1], render) == Concat(vs[..i], render) + render(vs[i])
  {
    assert vs[..i + 1][..i] == vs[..i];
  }

  /** For non-empty lists, the text of `a ++ b` is the text of `a` followed by the text of `b`. */
  lemma FormatAppend(a: seq<Violation>, b: seq<Violation>)
    requires |a| > 0 && |b| > 0
    ensures Format(Some(a + b)) == Format(Some(a)) + Format(Some(b))
  {
    ConcatAppend(a, b, Block);
  }

  /** One block per violation, in input order: the text of a non-empty list is
      the text before entry `i`, then the block of entry `i`, then the text after it. */
  lemma {:induction false} FormatIsBlocksInOrder(vs: seq<Violation>, i: nat)
    requires i < |vs|
    ensures Format(Some(vs)) == Concat(vs[..i], Block) + Block(vs[i]) + Concat(vs[i + 1..], Block)
  {
    assert vs == vs[..i] + [vs[i]] + vs[i + 1..];
    ConcatAppend(vs[..i] + [vs[i]], vs[i + 1..], Block);
    ConcatAppend(vs[..i], [vs[i]], Block);
    assert [vs[i]][..0] == [];
  }

  // ---------------------------------------------------------------------
  // The MessageCard
  // ---------------------------------------------------------------------

  /** A fact of the card; `None` is an `undefined` value, whose key
      `JSON.stringify` leaves out. */
  datatype CardFact = CardFact(name: string, value: JsValue)

  datatype Section = Section(
    activityTitle: string, activitySubtitle: string, markdown: bool,
    facts: seq<CardFact>, text: string)

  /** `@type`, `@context`, `summary`, `themeColor` and `sections`. */
  datatype MessageCard = MessageCard(
    kind: string, context: string, summary: string, themeColor: string, sections: seq<Section>)

  const AlertPrefix := "Alert: "
  const OrgPrefix := "Organization: "
  const RunbookOpen := "<br>[Operations Runbook]("

  /** The `teamsPayload` object literal, with `encodeURI` a parameter. */
  function BuildPayload(alert: Alert, encodeUri: string -> string): (card: MessageCard)
    ensures card.kind == "MessageCard" && card.context == "http://schema.org/extensions"
    ensures card.themeColor == "FF4300" && |card.sections| == 1
    ensures card.summary == card.sections[0].activityTitle
    ensures |card.sections[0].facts| == 2 && card.sections[0].markdown
  {
    MessageCard("MessageCard", "http://schema.org/extensions", AlertPrefix + Show(alert.alertName), "FF4300",
      [Section(AlertPrefix + Show(alert.alertName), OrgPrefix + Show(alert.org), true,
         [CardFact("Description", alert.description), CardFact("Alert Time", alert.alertTime)],
         Format(alert.violations) + RunbookOpen + encodeUri(Show(alert.playbook)) + ")")])
  }

  /** Every field of the alert the card uses can be read back from the card:
      the name after "Alert: ", the organisation after "Organization: ", the
      description and the time as the two facts in that order, the formatted
      violations at the head of the text, and the encoded runbook link between
      "[Operations Runbook](" and the closing parenthesis. */
  lemma PayloadCarriesAlert(alert: Alert, encodeUri: string -> string)
    ensures var card := BuildPayload(alert, encodeUri);
      var s := card.sections[0];
      && card.summary[..|AlertPrefix|] == AlertPrefix && card.summary[|AlertPrefix|..] == Show(alert.alertName)
      && s.activitySubtitle[..|OrgPrefix|] == OrgPrefix && s.activitySubtitle[|OrgPrefix|..] == Show(alert.org)
      && s.facts[0] == CardFact("Description", alert.description)
      && s.facts[1] == CardFact("Alert Time", alert.alertTime)
      && var f := Format(alert.violations); var u := encodeUri(Show(alert.playbook));
         && s.text[..|f|] == f
         && s.text[|f|..|f| + |RunbookOpen|] == RunbookOpen
         && s.text[|f| + |RunbookOpen|..|s.text| - 1] == u
         && s.text[|s.text| - 1] == ')'
  {
    var card := BuildPayload(alert, encodeUri);
    var s := card.sections[0];
    var f := Format(alert.violations);
    var u := encodeUri(Show(alert.playbook));
    assert s.text == f + RunbookOpen + u + ")";
  }

  // ---------------------------------------------------------------------
  // The flow gate
  // ---------------------------------------------------------------------

  const PayloadVariable := "teamsPayload"

  /** The whole policy. `flow` is `context.flow`, `variables` the flow
      variables it may set, `alert` the result of `JSON.parse` on the request
      content (a Failure when that throws, and also when the content parses
      to `null`, a missing body included, since reading `alertName` from
      `null` then throws a TypeError), and `stringify` is `JSON.stringify`.
      A Failure result is a script that threw. */
  function RunPolicy(flow: string, variables: map<string, string>, alert: Result<Alert>,
                     encodeUri: string -> string, stringify: MessageCard -> string): (r: Result<map<string, string>>)
    ensures flow != "PROXY_REQ_FLOW" ==> r == Success(variables)
    ensures flow == "PROXY_REQ_FLOW" && alert.Failure? ==> r.Failure?
  {
    if flow == "PROXY_REQ_FLOW" then
      match alert
      case Failure(e) => Failure(e)
      case Success(a) => Success(variables[PayloadVariable := stringify(BuildPayload(a, encodeUri))])
    else Success(variables)
  }

  /** In the proxy request flow the policy sets `teamsPayload` to the
      serialised card built from the alert, and leaves every other variable
      as it was; in any other flow it changes nothing. */
  lemma PolicySetsOnlyPayload(flow: string, variables: map<string, string>, alert: Alert,
                              encodeUri: string -> string, stringify: MessageCard -> string)
    ensures var r := RunPolicy(flow, variables, Success(alert), encodeUri, stringify);
      && r.Success?
      && (flow == "PROXY_REQ_FLOW" ==>
            && PayloadVariable in r.value
            && r.value[PayloadVariable] == stringify(BuildPayload(alert, encodeUri))
            && r.value.Keys == variables.Keys + {PayloadVariable}
            && (forall k :: k in variables && k != PayloadVariable ==> r.value[k] == variables[k]))
      && (flow != "PROXY_REQ_FLOW" ==> r.value == variables)
  {
  }
}

=== FILE: card.dfy ===
/** The Teams webhook message that carries an Adaptive Card, and generic
    queries over its element tree (every element, every id, every toggle
    target), written without reference to any particular card. */
module Card {
  import opened Wrappers
  import opened Json

  /** Properties shared by every element: an optional `id`, optional
      `isVisible` and `separator` values (taken from the incident record, so
      any JSON value), and the purely presentational string properties
      (size, weight, style, alignment, width, ...) in template order. */
  datatype Props = Props(
    id: Option<string>,
    isVisible: Option<Json>,
    separator: Option<Json>,
    layout: seq<(string, string)>)

  datatype Fact = Fact(title: string, value: Text)

  datatype Action =
    | ToggleVisibility(id: string, iconUrl: string, targetElements: seq<string>)
    | OpenUrl(title: string, tooltip: string, style: string, url: Text)

  datatype Element =
    | Container(items: seq<Element>, props: Props)
    | ColumnSet(columns: seq<Element>, props: Props)
    | Column(items: seq<Element>, props: Props)
    | TextBlock(text: Text, wrap: Json, props: Props)
    | FactSet(facts: seq<Fact>, props: Props)
    | ActionSet(actions: seq<Action>, props: Props)

  datatype AdaptiveCard = AdaptiveCard(schema: string, version: string, body: seq<Element>)

  datatype Attachment = Attachment(contentType: string, content: AdaptiveCard)

  /** The top-level webhook document: `type`, `content` and `attachments`. */
  datatype Message = Message(kind: string, content: string, attachments: seq<Attachment>)

  const AdaptiveContentType := "application/vnd.microsoft.card.adaptive"

  /** Every element of a forest, each before its descendants, in document order. */
  function Flatten(es: seq<Element>): seq<Element> {
    if |es| == 0 then [] else Subtree(es[0]) + Flatten(es[1..])
  }

  /** An element followed by all of its descendants. */
  function Subtree(e: Element): seq<Element> {
    [e] + match e
          case Container(items, _) => Flatten(items)
          case ColumnSet(columns, _) => Flatten(columns)
          case Column(items, _) => Flatten(items)
          case _ => []
  }

  /** All elements of a card body. */
  function Elements(m: Message): seq<Element> {
    if |m.attachments| == 0 then [] else Flatten(m.attachments[0].content.body)
  }

  /** The element itself (not one of its children) displays the text: as a
      text block's text, a fact's value or a link button's target. */
  predicate ShowsIn(e: Element, t: Text) {
    match e
    case TextBlock(x, _, _) => x == t
    case FactSet(facts, _) => exists f :: f in facts && f.value == t
    case ActionSet(actions, _) => exists a :: a in actions && a.OpenUrl? && a.url == t
    case _ => false
  }

  /** Some element of the card carries the id. */
  predicate HasId(m: Message, id: string) {
    exists e :: e in Elements(m) && e.props.id == Some(id)
  }

  /** No position of `es` holds an element carrying the id. */
  predicate NoneCarries(es: seq<Element>, id: string) {
    forall i :: 0 <= i < |es| ==> es[i].props.id != Some(id)
  }

  /** No two positions of `es` hold elements carrying the id, even equal ones. */
  predicate AtMostOneCarries(es: seq<Element>, id: string) {
    forall i, j :: 0 <= i < j < |es| ==> !(es[i].props.id == Some(id) && es[j].props.id == Some(id))
  }

  /** At most one element of the card, counted by position, carries the id. */
  predicate UniqueId(m: Message, id: string) {
    AtMostOneCarries(Elements(m), id)
  }

  /** What each element of `es` contributes to a listing, concatenated in document order. */
  function Collect<T>(es: seq<Element>, pick: Element -> seq<T>): seq<T> {
    if |es| == 0 then [] else pick(es[0]) + Collect(es[1..], pick)
  }

  /** The target lists of the toggle actions among `actions`, in order. */
  function ActionToggles(actions: seq<Action>): seq<seq<string>> {
    if |actions| == 0 then []
    else (if actions[0].ToggleVisibility? then [actions[0].targetElements] else []) + ActionToggles(actions[1..])
  }

  /** The target lists of the element's own toggle actions. */
  function ToggleTargetsOf(e: Element): seq<seq<string>> {
    if e.ActionSet? then ActionToggles(e.actions) else []
  }

  /** The element's own facts. */
  function FactsOf(e: Element): seq<Fact> {
    if e.FactSet? then e.facts else []
  }

  /** The element's text, when it is a text block. */
  function TextBlockOf(e: Element): seq<Text> {
    if e.TextBlock? then [e.text] else []
  }

  /** The separator value the element sets, if it sets one. */
  function SeparatorsOf(e: Element): seq<Json> {
    if e.props.separator.Some? then [e.props.separator.value] else []
  }

  /** The separator values the card's elements set, in document order. */
  function Separators(m: Message): seq<Json> {
    Collect(Elements(m), SeparatorsOf)
  }

  /** The target lists of every toggle action of the card, in document order. */
  function Toggles(m: Message): seq<seq<string>> {
    Collect(Elements(m), ToggleTargetsOf)
  }

  /** Every fact of every fact set of the card, in document order. */
  function FactList(m: Message): seq<Fact> {
    Collect(Elements(m), FactsOf)
  }

  /** The texts of the card's text blocks, in document order. */
  function TextBlocks(m: Message): seq<Text> {
    Collect(Elements(m), TextBlockOf)
  }

  /** Some element of the card carries the id and sets a visibility of its own. */
  predicate Collapses(m: Message, id: string) {
    exists e :: e in Elements(m) && e.props.id == Some(id) && e.props.isVisible.Some?
  }

  /** Some element of the card displays the text. */
  predicate Shows(m: Message, t: Text) {
    exists e :: e in Elements(m) && ShowsIn(e, t)
  }

  // ---------------------------------------------------------------------
  // Flattening distributes over concatenation.
  // ---------------------------------------------------------------------

  lemma {:induction false} FlattenAppend(a: seq<Element>, b: seq<Element>)
    ensures Flatten(a + b) == Flatten(a) + Flatten(b)
  {
    if |a| == 0 {
      assert a + b == b;
    } else {
      assert (a + b)[0] == a[0];
      assert (a + b)[1..] == a[1..] + b;
      FlattenAppend(a[1..], b);
    }
  }

  lemma {:induction false} CollectAppend<T>(a: seq<Element>, b: seq<Element>, pick: Element -> seq<T>)
    ensures Collect(a + b, pick) == Collect(a, pick) + Collect(b, pick)
  {
    if |a| == 0 {
      assert a + b == b;
    } else {
      assert (a + b)[0] == a[0];
      assert (a + b)[1..] == a[1..] + b;
      CollectAppend(a[1..], b, pick);
    }
  }

  lemma CollectCons<T>(e: Element, es: seq<Element>, pick: Element -> seq<T>)
    ensures Collect([e] + es, pick) == pick(e) + Collect(es, pick)
  {
    assert ([e] + es)[1..] == es;
  }

  lemma NoneCarriesAppend(a: seq<Element>, b: seq<Element>, id: string)
    requires NoneCarries(a, id) && NoneCarries(b, id)
    ensures NoneCarries(a + b, id)
  {
    forall i | 0 <= i < |a + b|
      ensures (a + b)[i].props.id != Some(id)
    {
      if i < |a| {
        assert (a + b)[i] == a[i];
      } else {
        assert (a + b)[i] == b[i - |a|];
      }
    }
  }

  /** A carrier of the id in the middle part, and none around it, stays unique. */
  lemma AtMostOneAround(a: seq<Element>, g: seq<Element>, b: seq<Element>, id: string)
    requires NoneCarries(a, id) && AtMostOneCarries(g, id) && NoneCarries(b, id)
    ensures AtMostOneCarries(a + g + b, id)
  {
    var s := a + g + b;
    forall i, j | 0 <= i < j < |s|
      ensures !(s[i].props.id == Some(id) && s[j].props.id == Some(id))
    {
      if i < |a| {
        assert s[i] == a[i];
      } else if i >= |a| + |g| {
        assert s[i] == b[i - |a| - |g|];
      } else if j >= |a| + |g| {
        assert s[j] == b[j - |a| - |g|];
      } else {
        assert s[i] == g[i - |a|] && s[j] == g[j - |a|];
      }
    }
  }

  lemma FlattenCons(e: Element, es: seq<Element>)
    ensures Flatten([e] + es) == Subtree(e) + Flatten(es)
  {
    assert ([e] + es)[1..] == es;
  }

  lemma FlattenOne(e: Element)
    ensures Flatten([e]) == Subtree(e)
  {
    assert [e][1..] == [];
  }
}

=== FILE: handler.dfy ===
/** `alert_notification_handler` and the delivery half of `post_data_to_teams`:
    what the Cloud Function does with one Pub/Sub message, as the trace of the
    records it writes and the card it posts, and how it ends. */
module Handler {
  import opened Wrappers
  import opened Json
  import opened Logging
  import opened Card
  import opened Render

  /** The environment values the function reads: LOG_LEVEL, MS_TEAMS_URL and RUNBOOK_URL. */
  datatype Config = Config(logLevel: Option<string>, teamsUrl: Option<string>, runbookUrl: Option<string>)

  /** The `event_id` and `timestamp` of the triggering event. */
  datatype Context = Context(eventId: string, timestamp: string)

  /** How `requests.post` came back: a response with its status code and the
      text `raise_for_status` reports for it, or a transport exception
      (connection, timeout, bad URL) with its text. */
  datatype Answer = Answered(status: int, errorText: string) | Unreachable(errorText: string)

  /** The Python exceptions the handler lets escape. */
  datatype PyError = KeyError | TypeError | AttributeError

  /** One observable effect of an invocation. */
  datatype Event =
    | Cloud(entry: Entry)                                     // log(...) through `cloudLogger`
    | Audit(eventId: string, timestamp: string, data: Json)   // logger.log_struct(...)
    | Post(url: Option<string>, card: Message)                // requests.post(ms_teams_url, json=card)
    | Root(level: Level, message: string)                     // logging.info / logging.error

  datatype Ending = Returned | Raised(error: PyError)

  /** The effects of an invocation in order, how it ended, and how many
      handlers `cloudLogger` holds afterwards. */
  datatype Run = Run(trace: seq<Event>, ending: Ending, attached: nat)

  const DecodePlaceholder := "error decoding payload"
  const EnteredMessage := "Entered the alert notification handler"
  const ParseErrorPrefix := "Error processing Pub/Sub message: "
  const PayloadPrefix := "Pub/Sub Alert Payload: "
  const ClosedMessage := "Incident state is closed, no Teams notification sent"
  const SentMessage := "Message sent to Microsoft Teams successfully"
  const FailurePrefix := "Failed to send message to Microsoft Teams: "

  /** The MissingSchema text `requests` raises for `requests.post(None, ...)`. */
  const MissingUrlError := "Invalid URL 'None': No scheme supplied. Perhaps you meant https://None?"

  // ---------------------------------------------------------------------
  // Delivery
  // ---------------------------------------------------------------------

  /** What the post ends with: without a URL `requests` raises before sending. */
  function Outcome(url: Option<string>, answer: Answer): (a: Answer)
    ensures url.None? ==> a == Unreachable(MissingUrlError)
    ensures url.Some? ==> a == answer
  {
    if url.None? then Unreachable(MissingUrlError) else answer
  }

  /** `raise_for_status()` raises for 4xx and 5xx answers; a transport failure
      raised already. Both are `RequestException`s. */
  predicate Fails(a: Answer) {
    a.Unreachable? || 400 <= a.status < 600
  }

  /** The `try` block around `requests.post`: post, then log success or the caught error. */
  function Deliver(url: Option<string>, card: Message, answer: Answer): (trace: seq<Event>)
    ensures |trace| == 2 && trace[0] == Post(url, card) && trace[1].Root?
    ensures trace[1].level == Error <==> Fails(Outcome(url, answer))
  {
    var a := Outcome(url, answer);
    [ Post(url, card),
      if Fails(a) then Root(Error, FailurePrefix + a.errorText) else Root(Info, SentMessage)]
  }

  /** `post_data_to_teams(dataString)` on the record the handler already parsed:
      render the card, then deliver it. It never raises. */
  function PostDataToTeams(top: map<string, Json>, cfg: Config, answer: Answer): (trace: seq<Event>)
    requires IncidentIsDict(top)
    ensures |trace| == 2 && trace[0] == Post(cfg.teamsUrl, RenderCard(top, cfg.runbookUrl))
    ensures trace[1] == Root(Info, SentMessage) || trace[1] == Root(Error, FailurePrefix + Outcome(cfg.teamsUrl, answer).errorText)
  {
    Deliver(cfg.teamsUrl, RenderCard(top, cfg.runbookUrl), answer)
  }

  // ---------------------------------------------------------------------
  // The handler
  // ---------------------------------------------------------------------

  /** `log(message, type)` as a trace step. */
  function Say(cfg: Config, attached: nat, message: Text, requested: string): (r: (Event, nat))
    ensures r.0.Cloud? && r.0.entry.level == ParseLevel(cfg.logLevel) && r.0.entry.message == message
    ensures r.1 == attached + 1 && r.0.entry.copies == r.1
  {
    var (entry, handlers) := Log(cfg.logLevel, attached, message, requested);
    (Cloud(entry), handlers)
  }

  /** The `LOG_LEVEL == 'DEBUG'` payload dump: written only when LOG_LEVEL is literally "DEBUG". */
  function Dump(cfg: Config, attached: nat, data: Json): (r: (seq<Event>, nat))
    ensures cfg.logLevel == Some("DEBUG") ==> |r.0| == 1 && r.0[0].Cloud? && r.0[0].entry.message == Fmt(PayloadPrefix, data, "")
    ensures cfg.logLevel != Some("DEBUG") ==> r.0 == [] && r.1 == attached
  {
    if cfg.logLevel == Some("DEBUG") then
      var (dump, handlers) := Say(cfg, attached, Fmt(PayloadPrefix, data, ""), "DEBUG");
      ([dump], handlers)
    else ([], attached)
  }

  /** The `data["incident"]` branch after the audit record: look up the incident and its state. */
  function Dispatch(data: Json, cfg: Config, attached: nat, answer: Answer): (r: Run)
  {
    if !data.JObj? then Run([], Raised(TypeError), attached)
    else if "incident" !in data.fields then Run([], Raised(KeyError), attached)
    else match data.fields["incident"]
      case JNull => Run([], Returned, attached)
      case JObj(incident) =>
        var state := Get(incident, "state", JNull);
        if Truthy(state) && !state.JStr? then Run([], Raised(AttributeError), attached)
        else if Truthy(state) && CaseFold(state.s) == "open" then
          Run(PostDataToTeams(data.fields, cfg, answer), Returned, attached)
        else
          var (closed, handlers) := Say(cfg, attached, Lit(ClosedMessage), "INFO");
          Run([closed], Returned, handlers)
      case _ => Run([], Raised(AttributeError), attached)
  }

  /** The text the handler parses: the decoded message, or the placeholder
      when base64 or UTF-8 decoding failed (`decoded == None`). */
  function DataString(decoded: Option<string>): (s: string)
    ensures decoded.Some? ==> s == decoded.value
    ensures decoded.None? ==> s == DecodePlaceholder
  {
    decoded.GetOr(DecodePlaceholder)
  }

  /** `alert_notification_handler(event, context)` with `attached` handlers
      left on `cloudLogger` by earlier invocations in the same process.
      `parse` is `json.loads`; `answer` is what the webhook post would meet. */
  function Handle(decoded: Option<string>, parse: string -> Result<Json>, ctx: Context,
                  cfg: Config, attached: nat, answer: Answer): (r: Run)
    ensures |r.trace| >= 2
    ensures r.trace[0] == Cloud(Entry(ParseLevel(cfg.logLevel), Lit(EnteredMessage), attached + 1))
    ensures r.attached > attached
    ensures r.ending.Raised? ==> parse(DataString(decoded)).Success?
  {
    var (entered, n1) := Say(cfg, attached, Lit(EnteredMessage), "INFO");
    match parse(DataString(decoded))
    case Failure(e) =>
      var (failed, n2) := Say(cfg, n1, Lit(ParseErrorPrefix + e), "ERROR");
      Run([entered, failed], Returned, n2)
    case Success(data) =>
      var (dump, n2) := Dump(cfg, n1, data);
      var rest := Dispatch(data, cfg, n2, answer);
      Run([entered] + dump + [Audit(ctx.eventId, ctx.timestamp, data)] + rest.trace, rest.ending, rest.attached)
  }
}

=== FILE: handler_facts.dfy ===
/** What `alert_notification_handler` promises for every message: when a card
    is posted, what happens before it, which records are written at which
    level, and how malformed payloads end. */
module HandlerFacts {
  import opened Wrappers
  import opened Json
  import opened Logging
  import opened Card
  import opened Render
  import opened Handler

  /** The notification condition on a parsed payload, with the accepted
      spellings of "open" written out instead of computed by case folding. */
  predicate Alerting(data: Json) {
    && data.JObj? && "incident" in data.fields && data.fields["incident"].JObj?
    && "state" in data.fields["incident"].fields
    && data.fields["incident"].fields["state"].JStr?
    && SpellsOpen(data.fields["incident"].fields["state"].s)
  }

  /** An incident whose state is empty, missing, null, false, zero, or a
      string other than "open" in some letter case. */
  predicate Closed(data: Json) {
    && data.JObj? && "incident" in data.fields && data.fields["incident"].JObj?
    && var state := Get(data.fields["incident"].fields, "state", JNull);
       !Truthy(state) || (state.JStr? && !SpellsOpen(state.s))
  }

  /** A truthy state without a `casefold` method: a number, `true`, a list or an object. */
  predicate StateNotAString(incident: map<string, Json>) {
    var state := Get(incident, "state", JNull);
    Truthy(state) && !state.JStr?
  }

  predicate HasPost(t: seq<Event>) {
    exists i :: 0 <= i < |t| && t[i].Post?
  }

  predicate HasAudit(t: seq<Event>) {
    exists i :: 0 <= i < |t| && t[i].Audit?
  }

  /** The handler counts of the Cloud Logging entries of a trace, in order. */
  function CloudCopies(t: seq<Event>): (cs: seq<nat>)
    ensures |cs| <= |t|
  {
    if t == [] then []
    else (if t[0].Cloud? then [t[0].entry.copies] else []) + CloudCopies(t[1..])
  }

  lemma {:induction false} CloudCopiesAppend(a: seq<Event>, b: seq<Event>)
    ensures CloudCopies(a + b) == CloudCopies(a) + CloudCopies(b)
  {
    if a == [] {
      assert a + b == b;
    } else {
      var h := if a[0].Cloud? then [a[0].entry.copies] else [];
      assert (a + b)[0] == a[0] && (a + b)[1..] == a[1..] + b;
      assert CloudCopies(a + b) == h + CloudCopies(a[1..] + b);
      assert CloudCopies(a) == h + CloudCopies(a[1..]);
      CloudCopiesAppend(a[1..], b);
    }
  }

  lemma HasPostAppend(a: seq<Event>, b: seq<Event>)
    ensures HasPost(a + b) <==> HasPost(a) || HasPost(b)
  {
    if HasPost(a) {
      var i :| 0 <= i < |a| && a[i].Post?;
      assert (a + b)[i] == a[i];
    }
    if HasPost(b) {
      var i :| 0 <= i < |b| && b[i].Post?;
      assert (a + b)[|a| + i] == b[i];
    }
    if HasPost(a + b) {
      var i :| 0 <= i < |a + b| && (a + b)[i].Post?;
      if i >= |a| {
        assert b[i - |a|] == (a + b)[i];
      } else {
        assert a[i] == (a + b)[i];
      }
    }
  }

  /** Consecutive handler counts from `from + 1` to `from + |cs|`. */
  predicate CountsFrom(cs: seq<nat>, from: nat) {
    forall k :: 0 <= k < |cs| ==> cs[k] == from + 1 + k
  }

  // ---------------------------------------------------------------------
  // The dispatch on the incident
  // ---------------------------------------------------------------------

  lemma DispatchShape(data: Json, cfg: Config, n: nat, answer: Answer)
    ensures var r := Dispatch(data, cfg, n, answer);
      && !HasAudit(r.trace)
      && (HasPost(r.trace) <==> Alerting(data))
      && (forall e :: e in r.trace && e.Cloud? ==> e.entry.level == ParseLevel(cfg.logLevel) && e.entry.message == Lit(ClosedMessage))
      && r.attached == n + |CloudCopies(r.trace)| && CountsFrom(CloudCopies(r.trace), n)
  {
    var r := Dispatch(data, cfg, n, answer);
    if data.JObj? && "incident" in data.fields && data.fields["incident"].JObj? {
      var state := Get(data.fields["incident"].fields, "state", JNull);
      if state.JStr? {
        CaseFoldOpenIff(state.s);
      }
      if Alerting(data) {
        assert r.trace[0].Post?;
      } else {
        assert forall e :: e in r.trace ==> e.Cloud?;
      }
    }
  }

  // ---------------------------------------------------------------------
  // Handler-level properties
  // ---------------------------------------------------------------------

  /** A card is posted exactly when the payload parses, its incident is an
      object, and the incident's state is a string that reads "open" in some
      letter case; the card posted is the one rendered from the payload. */
  lemma PostsExactlyWhenOpen(decoded: Option<string>, parse: string -> Result<Json>, ctx: Context,
                             cfg: Config, attached: nat, answer: Answer)
    ensures var r := Handle(decoded, parse, ctx, cfg, attached, answer);
      var p := parse(DataString(decoded));
      HasPost(r.trace) <==> p.Success? && Alerting(p.value)
  {
    var r := Handle(decoded, parse, ctx, cfg, attached, answer);
    var p := parse(DataString(decoded));
    if p.Success? {
      var (entered, n1) := Say(cfg, attached, Lit(EnteredMessage), "INFO");
      var (dump, n2) := Dump(cfg, n1, p.value);
      var rest := Dispatch(p.value, cfg, n2, answer);
      var head := [entered] + dump + [Audit(ctx.eventId, ctx.timestamp, p.value)];
      assert r.trace == head + rest.trace;
      DispatchShape(p.value, cfg, n2, answer);
      assert !HasPost(head);
      HasPostAppend(head, rest.trace);
    }
  }

  /** When a card is posted, the post is the last step but one, it goes to
      MS_TEAMS_URL with the card rendered from the payload and RUNBOOK_URL, and
      its failure is caught: the handler returns normally and the last record
      says whether Teams accepted the card. */
  lemma DeliveryNeverRaises(decoded: Option<string>, parse: string -> Result<Json>, ctx: Context,
                            cfg: Config, attached: nat, answer: Answer)
    requires parse(DataString(decoded)).Success? && Alerting(parse(DataString(decoded)).value)
    ensures var r := Handle(decoded, parse, ctx, cfg, attached, answer);
      var data := parse(DataString(decoded)).value;
      && r.ending == Returned
      && |r.trace| >= 3
      && r.trace[|r.trace| - 2] == Post(cfg.teamsUrl, RenderCard(data.fields, cfg.runbookUrl))
      && (Fails(Outcome(cfg.teamsUrl, answer)) ==>
            r.trace[|r.trace| - 1] == Root(Error, FailurePrefix + Outcome(cfg.teamsUrl, answer).errorText))
      && (!Fails(Outcome(cfg.teamsUrl, answer)) ==> r.trace[|r.trace| - 1] == Root(Info, SentMessage))
    ensures var r := Handle(decoded, parse, ctx, cfg, attached, answer);
      cfg.teamsUrl.None? ==> r.trace[|r.trace| - 1] == Root(Error, FailurePrefix + MissingUrlError)
    ensures var r := Handle(decoded, parse, ctx, cfg, attached, answer);
      cfg.teamsUrl.Some? && answer.Answered? && 200 <= answer.status < 300 ==> r.trace[|r.trace| - 1] == Root(Info, SentMessage)
  {
    var data := parse(DataString(decoded)).value;
    CaseFoldOpenIff(data.fields["incident"].fields["state"].s);
  }

  /** Whatever the state, a parsed payload yields exactly one audit record
      `{event_id, timestamp, data}`, and it comes before any post. */
  lemma AuditOnceBeforePost(decoded: Option<string>, parse: string -> Result<Json>, ctx: Context,
                            cfg: Config, attached: nat, answer: Answer)
    requires parse(DataString(decoded)).Success?
    ensures var r := Handle(decoded, parse, ctx, cfg, attached, answer);
      exists i :: && 0 <= i < |r.trace|
                  && r.trace[i] == Audit(ctx.eventId, ctx.timestamp, parse(DataString(decoded)).value)
                  && (forall j :: 0 <= j < |r.trace| && r.trace[j].Audit? ==> j == i)
                  && (forall j :: 0 <= j < |r.trace| && r.trace[j].Post? ==> i < j)
  {
    var r := Handle(decoded, parse, ctx, cfg, attached, answer);
    var data := parse(DataString(decoded)).value;
    var (entered, n1) := Say(cfg, attached, Lit(EnteredMessage), "INFO");
    var (dump, n2) := Dump(cfg, n1, data);
    var rest := Dispatch(data, cfg, n2, answer);
    var head := [entered] + dump;
    var audit := Audit(ctx.eventId, ctx.timestamp, data);
    assert r.trace == head + [audit] + rest.trace;
    DispatchShape(data, cfg, n2, answer);
    var i := |head|;
    forall j | 0 <= j < |r.trace| && r.trace[j].Audit?
      ensures j == i
    {
    }
    forall j | 0 <= j < |r.trace| && r.trace[j].Post?
      ensures i < j
    {
    }
    assert r.trace[i] == audit;
  }

  /** If the text does not parse, the handler logs the parser's message and
      returns: no audit record, no post. */
  lemma ParseFailureAborts(decoded: Option<string>, parse: string -> Result<Json>, ctx: Context,
                           cfg: Config, attached: nat, answer: Answer)
    requires parse(DataString(decoded)).Failure?
    ensures var r := Handle(decoded, parse, ctx, cfg, attached, answer);
      && r.ending == Returned
      && !HasAudit(r.trace) && !HasPost(r.trace)
      && r.trace[|r.trace| - 1] == Cloud(Entry(ParseLevel(cfg.logLevel),
           Lit(ParseErrorPrefix + parse(DataString(decoded)).error), attached + 2))
  {
  }

  /** Characters a JSON document may start with after leading white space;
      Python's `json.loads` also accepts `NaN` and `Infinity`. */
  predicate StartsValue(c: char) {
    || c == '{' || c == '[' || c == '"' || c == '-' || '0' <= c <= '9'
    || c == 't' || c == 'f' || c == 'n' || c == 'N' || c == 'I'
  }

  /** The white space `json.loads` skips before a value. */
  predicate IsJsonSpace(c: char) {
    c == ' ' || c == '\t' || c == '\n' || c == '\r'
  }

  /** The part of `json.loads` the handler relies on: a text whose first
      character neither is white space nor can start a value is rejected. */
  ghost predicate RejectsBadStart(parse: string -> Result<Json>) {
    forall s :: |s| > 0 && !IsJsonSpace(s[0]) && !StartsValue(s[0]) ==> parse(s).Failure?
  }

  /** A payload that fails base64 or UTF-8 decoding becomes "error decoding
      payload", which is not JSON, so it ends in the same abort as a parse error. */
  lemma DecodeFailureAborts(parse: string -> Result<Json>, ctx: Context,
                            cfg: Config, attached: nat, answer: Answer)
    requires RejectsBadStart(parse)
    ensures var r := Handle(None, parse, ctx, cfg, attached, answer);
      r.ending == Returned && !HasAudit(r.trace) && !HasPost(r.trace)
  {
    var c := DecodePlaceholder[0];
    assert c == 'e' && !IsJsonSpace(c) && !StartsValue(c);
    assert parse(DecodePlaceholder).Failure?;
    ParseFailureAborts(None, parse, ctx, cfg, attached, answer);
  }

  /** Every `log()` record is written at the configured level whatever level
      the call asks for, and since every call attaches one more handler the
      records of one invocation are written by `attached + 1`, `attached + 2`,
      ... handlers in turn. */
  lemma LogRecordsFollowConfiguredLevel(decoded: Option<string>, parse: string -> Result<Json>, ctx: Context,
                                        cfg: Config, attached: nat, answer: Answer)
    ensures var r := Handle(decoded, parse, ctx, cfg, attached, answer);
      && (forall e :: e in r.trace && e.Cloud? ==> e.entry.level == ParseLevel(cfg.logLevel))
      && r.attached == attached + |CloudCopies(r.trace)|
      && CountsFrom(CloudCopies(r.trace), attached)
  {
    var r := Handle(decoded, parse, ctx, cfg, attached, answer);
    var p := parse(DataString(decoded));
    var (entered, n1) := Say(cfg, attached, Lit(EnteredMessage), "INFO");
    if p.Success? {
      var (dump, n2) := Dump(cfg, n1, p.value);
      var rest := Dispatch(p.value, cfg, n2, answer);
      var head := [entered] + dump + [Audit(ctx.eventId, ctx.timestamp, p.value)];
      assert r.trace == head + rest.trace;
      DispatchShape(p.value, cfg, n2, answer);
      CloudCopiesAppend(head, rest.trace);
      CloudCopiesAppend([entered] + dump, [Audit(ctx.eventId, ctx.timestamp, p.value)]);
      CloudCopiesAppend([entered], dump);
      assert CloudCopies([Audit(ctx.eventId, ctx.timestamp, p.value)]) == [];
      assert CloudCopies([entered]) == [attached + 1];
      if cfg.logLevel == Some("DEBUG") {
        assert CloudCopies(dump) == [attached + 2];
      }
    } else {
      var (failed, n2) := Say(cfg, n1, Lit(ParseErrorPrefix + p.error), "ERROR");
      assert r.trace == [entered, failed];
      assert CloudCopies(r.trace) == [attached + 1, attached + 2];
    }
  }

  /** The payload dump is logged exactly when LOG_LEVEL is literally "DEBUG";
      "debug" lowers the level but does not dump. */
  lemma PayloadDumpOnlyForDebug(decoded: Option<string>, parse: string -> Result<Json>, ctx: Context,
                                cfg: Config, attached: nat, answer: Answer)
    requires parse(DataString(decoded)).Success?
    ensures var r := Handle(decoded, parse, ctx, cfg, attached, answer);
      var dump := Fmt(PayloadPrefix, parse(DataString(decoded)).value, "");
      (exists e :: e in r.trace && e.Cloud? && e.entry.message == dump) <==> cfg.logLevel == Some("DEBUG")
  {
    var r := Handle(decoded, parse, ctx, cfg, attached, answer);
    var data := parse(DataString(decoded)).value;
    var (entered, n1) := Say(cfg, attached, Lit(EnteredMessage), "INFO");
    var (dump, n2) := Dump(cfg, n1, data);
    var rest := Dispatch(data, cfg, n2, answer);
    assert r.trace == [entered] + dump + [Audit(ctx.eventId, ctx.timestamp, data)] + rest.trace;
    DispatchShape(data, cfg, n2, answer);
    if cfg.logLevel == Some("DEBUG") {
      assert dump[0] in r.trace;
    }
  }

  /** A closed state (missing, null, empty, false, zero, or a string that is
      not "open") posts nothing and logs the "closed" message last. */
  lemma ClosedStateLogsClosed(decoded: Option<string>, parse: string -> Result<Json>, ctx: Context,
                              cfg: Config, attached: nat, answer: Answer)
    requires parse(DataString(decoded)).Success? && Closed(parse(DataString(decoded)).value)
    ensures var r := Handle(decoded, parse, ctx, cfg, attached, answer);
      && r.ending == Returned
      && !HasPost(r.trace)
      && r.trace[|r.trace| - 1] == Cloud(Entry(ParseLevel(cfg.logLevel), Lit(ClosedMessage), r.attached))
  {
    var data := parse(DataString(decoded)).value;
    var state := Get(data.fields["incident"].fields, "state", JNull);
    if state.JStr? {
      CaseFoldOpenIff(state.s);
    }
    PostsExactlyWhenOpen(decoded, parse, ctx, cfg, attached, answer);
  }

  /** A null incident is ignored: the audit record is the last effect, with
      neither a post nor the "closed" message. */
  lemma NullIncidentIsIgnored(decoded: Option<string>, parse: string -> Result<Json>, ctx: Context,
                              cfg: Config, attached: nat, answer: Answer)
    requires parse(DataString(decoded)).Success?
    requires var data := parse(DataString(decoded)).value;
      data.JObj? && "incident" in data.fields && data.fields["incident"] == JNull
    ensures var r := Handle(decoded, parse, ctx, cfg, attached, answer);
      && r.ending == Returned
      && !HasPost(r.trace)
      && r.trace[|r.trace| - 1] == Audit(ctx.eventId, ctx.timestamp, parse(DataString(decoded)).value)
      && Lit(ClosedMessage) !in set e | e in r.trace && e.Cloud? :: e.entry.message
  {
  }

  /** The malformed payloads the handler does not guard against: they raise
      after the audit record is written, and nothing is posted. */
  lemma MalformedPayloadRaises(decoded: Option<string>, parse: string -> Result<Json>, ctx: Context,
                               cfg: Config, attached: nat, answer: Answer)
    requires parse(DataString(decoded)).Success?
    ensures var r := Handle(decoded, parse, ctx, cfg, attached, answer);
      var data := parse(DataString(decoded)).value;
      && (!data.JObj? ==> r.ending == Raised(TypeError))
      && (data.JObj? && "incident" !in data.fields ==> r.ending == Raised(KeyError))
      && ((data.JObj? && "incident" in data.fields && !data.fields["incident"].JNull? && !data.fields["incident"].JObj?)
          ==> r.ending == Raised(AttributeError))
      && ((data.JObj? && "incident" in data.fields && data.fields["incident"].JObj?
           && StateNotAString(data.fields["incident"].fields))
          ==> r.ending == Raised(AttributeError))
      && (r.ending.Raised? ==>
            && r.trace[|r.trace| - 1] == Audit(ctx.eventId, ctx.timestamp, data)
            && !HasPost(r.trace))
  {
    var r := Handle(decoded, parse, ctx, cfg, attached, answer);
    var data := parse(DataString(decoded)).value;
    var (entered, n1) := Say(cfg, attached, Lit(EnteredMessage), "INFO");
    var (dump, n2) := Dump(cfg, n1, data);
    var rest := Dispatch(data, cfg, n2, answer);
    var head := [entered] + dump + [Audit(ctx.eventId, ctx.timestamp, data)];
    assert r.trace == head + rest.trace && r.ending == rest.ending;
    if rest.ending.Raised? {
      assert rest.trace == [];
      assert r.trace == head;
      assert !HasPost(head);
    }
  }
}

=== FILE: json.dfy ===
/** JSON values as produced by a JSON parser, and the handful of Python
    operations the alert handler applies to them: `dict.get` with a default,
    truthiness, `str.casefold` and f-string interpolation. */
module Json {
  import opened Wrappers

  /** A parsed JSON document. Numbers are integers; objects are dictionaries
      (duplicate keys are resolved by the parser, last one wins). */
  datatype Json =
    | JNull
    | JBool(b: bool)
    | JNum(n: int)
    | JStr(s: string)
    | JArr(items: seq<Json>)
    | JObj(fields: map<string, Json>)

  /** Python `d.get(key, default)`. */
  function Get(d: map<string, Json>, key: string, default: Json): (r: Json)
    ensures key in d ==> r == d[key]
    ensures key !in d ==> r == default
  {
    if key in d then d[key] else default
  }

  /** Python truthiness of a decoded JSON value: `None`, `False`, `0`, `""`,
      `[]` and `{}` are false, everything else is true. */
  predicate Truthy(j: Json) {
    match j
    case JNull => false
    case JBool(b) => b
    case JNum(n) => n != 0
    case JStr(s) => s != ""
    case JArr(items) => |items| > 0
    case JObj(fields) => |fields| > 0
  }

  function LowerChar(c: char): char {
    if 'A' <= c <= 'Z' then (c as int - 'A' as int + 'a' as int) as char else c
  }

  function UpperChar(c: char): char {
    if 'a' <= c <= 'z' then (c as int - 'a' as int + 'A' as int) as char else c
  }

  /** `str.casefold()` restricted to ASCII letters. */
  function CaseFold(s: string): (r: string)
    ensures |r| == |s|
    ensures forall i :: 0 <= i < |s| ==> r[i] == LowerChar(s[i])
  {
    seq(|s|, i requires 0 <= i < |s| => LowerChar(s[i]))
  }

  /** `str.upper()` restricted to ASCII letters. */
  function Upper(s: string): (r: string)
    ensures |r| == |s|
    ensures forall i :: 0 <= i < |s| ==> r[i] == UpperChar(s[i])
  {
    seq(|s|, i requires 0 <= i < |s| => UpperChar(s[i]))
  }

  /** Exactly the sixteen spellings "open", "OPEN", "Open", "oPeN", ... */
  predicate SpellsOpen(s: string) {
    && |s| == 4
    && (s[0] == 'o' || s[0] == 'O')
    && (s[1] == 'p' || s[1] == 'P')
    && (s[2] == 'e' || s[2] == 'E')
    && (s[3] == 'n' || s[3] == 'N')
  }

  /** The case-insensitive comparison `s.casefold() == 'open'` accepts
      exactly the case variants of "open". */
  lemma CaseFoldOpenIff(s: string)
    ensures CaseFold(s) == "open" <==> SpellsOpen(s)
  {
    if SpellsOpen(s) {
      assert CaseFold(s) == "open";
    }
    if CaseFold(s) == "open" {
      assert LowerChar(s[0]) == 'o' && LowerChar(s[1]) == 'p';
      assert LowerChar(s[2]) == 'e' && LowerChar(s[3]) == 'n';
    }
  }

  /** A text produced by interpolation: a template literal, an f-string
      `f"{before}{value}{after}"` whose `str()` rendering of `value` is left
      abstract, or a value placed in the document without conversion. */
  datatype Text =
    | Lit(s: string)
    | Fmt(before: string, value: Json, after: string)
    | Val(value: Json)

  /** The characters of a text, when they are determined without Python's
      `str()` of a non-string value. */
  function Shown(t: Text): (r: Option<string>)
    ensures t.Lit? ==> r == Some(t.s)
    ensures t.Fmt? && t.value.JStr? ==> r == Some(t.before + t.value.s + t.after)
  {
    match t
    case Lit(s) => Some(s)
    case Fmt(before, JStr(s), after) => Some(before + s + after)
    case Val(JStr(s)) => Some(s)
    case _ => None
  }
}

=== FILE: logging.dfy ===
/** The centralised `log(message, type)` helper of the Cloud Function: the
    level comes from the LOG_LEVEL environment value, and every call attaches
    one more Cloud Logging handler to the shared `cloudLogger`. */
module Logging {
  import opened Wrappers
  import opened Json

  /** The levels Python's `logging` module exposes by upper-case name. */
  datatype Level = NotSet | Debug | Info | Warning | Error | Critical

  /** The canonical attribute name of each level on the `logging` module. */
  function LevelName(l: Level): string {
    match l
    case NotSet => "NOTSET"
    case Debug => "DEBUG"
    case Info => "INFO"
    case Warning => "WARNING"
    case Error => "ERROR"
    case Critical => "CRITICAL"
  }

  /** The level `getattr(logging, name)` resolves each upper-case level name
      to, the aliases `WARN` and `FATAL` included. */
  const LevelNames: map<string, Level> := map[
    "NOTSET" := NotSet, "DEBUG" := Debug, "INFO" := Info,
    "WARNING" := Warning, "WARN" := Warning, "ERROR" := Error,
    "CRITICAL" := Critical, "FATAL" := Critical]

  /** Every upper-case name that `getattr(logging, name)` resolves to a level. */
  predicate NamesLevel(name: string) {
    name in LevelNames
  }

  /** `getattr(logging, os.getenv('LOG_LEVEL', 'INFO').upper(), logging.INFO)`. */
  function ParseLevel(env: Option<string>): (l: Level)
    ensures env == None ==> l == Info
    ensures env.Some? && !NamesLevel(Upper(env.value)) ==> l == Info
    ensures env.Some? && NamesLevel(Upper(env.value)) ==> l == LevelNames[Upper(env.value)]
  {
    var name := Upper(env.GetOr("INFO"));
    if name == "NOTSET" then NotSet
    else if name == "DEBUG" then Debug
    else if name == "INFO" then Info
    else if name == "WARNING" || name == "WARN" then Warning
    else if name == "ERROR" then Error
    else if name == "CRITICAL" || name == "FATAL" then Critical
    else Info
  }

  /** Every level can be configured by its own name, in any letter case. */
  lemma ParseLevelNameRoundTrip(l: Level, s: string)
    requires Upper(s) == LevelName(l)
    ensures ParseLevel(Some(s)) == l
    ensures ParseLevel(Some(LevelName(l))) == l
  {
    assert Upper(LevelName(l)) == LevelName(l);
  }

  /** Only the upper-cased spelling of the value matters. */
  lemma {:induction false} ParseLevelIgnoresCase(s: string)
    ensures ParseLevel(Some(s)) == ParseLevel(Some(Upper(s)))
  {
    assert Upper(Upper(s)) == Upper(s);
  }

  /** One record handed to Cloud Logging: the message, the level it is
      written at, and how many attached handlers each write it out. */
  datatype Entry = Entry(level: Level, message: Text, copies: nat)

  /** `log(message, type)` when `attached` handlers were left on the shared
      logger by earlier calls in this process. Returns the entry and the
      number of handlers attached afterwards. */
  function Log(env: Option<string>, attached: nat, message: Text, requested: string): (r: (Entry, nat))
    ensures r.0.level == ParseLevel(env)
    ensures r.0.message == message
    ensures r.1 == attached + 1 && r.0.copies == r.1
  {
    var handlers := attached + 1;
    (Entry(ParseLevel(env), message, handlers), handlers)
  }
}

=== FILE: render.dfy ===
/** The adaptive card that `post_data_to_teams` builds from a decoded alert
    record: rendering hints with defaults, eleven incident fields that each
    fall back to "Unknown", and the toggle buttons that show and hide the
    details panel by element id. */
module Render {
  import opened Wrappers
  import opened Json
  import opened Card

  /** The three top-level rendering hints, as found in the record (any JSON value). */
  datatype Hints = Hints(wrap: Json, separator: Json, isVisible: Json)

  /** `payload_json.get("wrap", True)`, `.get("separator", True)`, `.get("isVisible", False)`. */
  function HintsOf(top: map<string, Json>): (h: Hints)
    ensures "wrap" !in top ==> h.wrap == JBool(true)
    ensures "separator" !in top ==> h.separator == JBool(true)
    ensures "isVisible" !in top ==> h.isVisible == JBool(false)
    ensures "wrap" in top ==> h.wrap == top["wrap"]
    ensures "separator" in top ==> h.separator == top["separator"]
    ensures "isVisible" in top ==> h.isVisible == top["isVisible"]
  {
    Hints(Get(top, "wrap", JBool(true)), Get(top, "separator", JBool(true)), Get(top, "isVisible", JBool(false)))
  }

  const Unknown := JStr("Unknown")

  /** `payload_json.get('incident', {})` is a dictionary, so that `.get(...)`
      on it does not raise. A present `incident` that is `null`, a list, a
      string, a number or a boolean makes the renderer raise AttributeError. */
  predicate IncidentIsDict(top: map<string, Json>) {
    "incident" !in top || top["incident"].JObj?
  }

  /** `payload_json.get('incident', {})`. */
  function IncidentOf(top: map<string, Json>): map<string, Json>
    requires IncidentIsDict(top)
  {
    if "incident" in top then top["incident"].fields else map[]
  }

  /** `payload_json.get('incident', {}).get(name, 'Unknown')`. */
  function Field(top: map<string, Json>, name: string): (v: Json)
    requires IncidentIsDict(top)
    ensures "incident" !in top ==> v == Unknown
    ensures "incident" in top && name !in top["incident"].fields ==> v == Unknown
    ensures "incident" in top && name in top["incident"].fields ==> v == top["incident"].fields[name]
  {
    Get(IncidentOf(top), name, Unknown)
  }

  /** The eleven incident fields the card shows, in document order, each with
      the mark the template puts on both sides: the policy name in bold, the
      condition name in italics, the others as they are. */
  const Fields: seq<(string, string)> := [
    ("policy_name", "**"), ("condition_name", "_"), ("summary", ""),
    ("threshold_value", ""), ("observed_value", ""), ("scoping_project_id", ""),
    ("scoping_project_number", ""), ("incident_id", ""), ("state", ""), ("severity", ""), ("url", "")]

  /** `f"{mark}{payload_json.get('incident', {}).get(name, 'Unknown')}{mark}"`. */
  function FieldText(top: map<string, Json>, name: string, mark: string): Text
    requires IncidentIsDict(top)
  {
    Fmt(mark, Field(top, name), mark)
  }

  /** The configured runbook URL as it is placed in the card: `None` becomes JSON null. */
  function RunbookLink(runbookUrl: Option<string>): Text {
    Val(match runbookUrl case Some(u) => JStr(u) case None => JNull)
  }

  function Plain(layout: seq<(string, string)>): Props {
    Props(None, None, None, layout)
  }

  // ---------------------------------------------------------------------
  // The template, one function per element that a property refers to.
  // ---------------------------------------------------------------------

  function Title(h: Hints): Element {
    TextBlock(Lit("Google Cloud Alerts"), h.wrap,
      Plain([("size", "Medium"), ("weight", "Bolder"), ("spacing", "Large"), ("horizontalAlignment", "Center")]))
  }

  function HeaderBlock(h: Hints): Element {
    Container([Title(h)], Props(None, None, Some(h.separator), [("style", "emphasis")]))
  }

  function PolicyLine(h: Hints, top: map<string, Json>): Element
    requires IncidentIsDict(top)
  {
    TextBlock(FieldText(top, "policy_name", "**"), h.wrap, Plain([]))
  }

  function PolicyBlock(h: Hints, top: map<string, Json>): Element
    requires IncidentIsDict(top)
  {
    Container([PolicyLine(h, top)], Props(None, None, Some(h.separator), []))
  }

  function ConditionLine(h: Hints, top: map<string, Json>): Element
    requires IncidentIsDict(top)
  {
    TextBlock(FieldText(top, "condition_name", "_"), h.wrap, Plain([]))
  }

  function SummaryLine(h: Hints, top: map<string, Json>): Element
    requires IncidentIsDict(top)
  {
    TextBlock(FieldText(top, "summary", ""), h.wrap, Plain([]))
  }

  function ValueFacts(top: map<string, Json>): Element
    requires IncidentIsDict(top)
  {
    FactSet(
      [ Fact("Threshold", FieldText(top, "threshold_value", "")),
        Fact("Observed Value", FieldText(top, "observed_value", ""))],
      Plain([]))
  }

  function ValueBox(h: Hints, top: map<string, Json>): Element
    requires IncidentIsDict(top)
  {
    Container([ValueFacts(top)], Props(None, None, Some(h.separator), []))
  }

  function ConditionBlock(h: Hints, top: map<string, Json>): Element
    requires IncidentIsDict(top)
  {
    Container([ConditionLine(h, top), SummaryLine(h, top), ValueBox(h, top)], Plain([]))
  }

  const ExpandTargets: seq<string> := ["moreDetails", "moreDetailsWrapper", "chevronUp", "chevronDown"]
  const CollapseTargets: seq<string> := ["moreDetails", "moreDetailsWrapper", "chevronDown", "chevronUp"]

  function MoreLabel(h: Hints): Element {
    TextBlock(Lit("More Details"), h.wrap, Plain([("horizontalAlignment", "Center")]))
  }

  function LabelColumn(h: Hints): Element {
    Column([MoreLabel(h)],
      Plain([("width", "stretch"), ("horizontalAlignment", "Right"), ("verticalContentAlignment", "Center")]))
  }

  /** The down chevron, `chevronDown`, whose button expands the details. */
  function ExpandButton(): Element {
    ActionSet(
      [ToggleVisibility("expandDetails", "https://amdesigner.azurewebsites.net/samples/assets/Down.png", ExpandTargets)],
      Props(Some("chevronDown"), None, None, [("horizontalAlignment", "Right")]))
  }

  function ExpandColumn(): Element {
    Column([ExpandButton()], Plain([("width", "stretch")]))
  }

  /** The up chevron, `chevronUp`, whose button collapses the details; hidden by default. */
  function CollapseButton(h: Hints): Element {
    ActionSet(
      [ToggleVisibility("collapseDetails", "https://amdesigner.azurewebsites.net/samples/assets/Up.png", CollapseTargets)],
      Props(Some("chevronUp"), Some(h.isVisible), None, [("horizontalAlignment", "Left")]))
  }

  function CollapseColumn(h: Hints): Element {
    Column([CollapseButton(h)], Plain([("width", "stretch")]))
  }

  function ToggleRow(h: Hints): Element {
    ColumnSet([LabelColumn(h), ExpandColumn(), CollapseColumn(h)], Plain([]))
  }

  function ToggleBlock(h: Hints): Element {
    Container([ToggleRow(h)], Props(None, None, Some(h.separator), [("style", "default")]))
  }

  /** The collapsible details, `moreDetails`. */
  function DetailFacts(h: Hints, top: map<string, Json>): Element
    requires IncidentIsDict(top)
  {
    FactSet(
      [ Fact("Project", FieldText(top, "scoping_project_id", "")),
        Fact("Project Num", FieldText(top, "scoping_project_number", "")),
        Fact("Incident Id", FieldText(top, "incident_id", "")),
        Fact("State", FieldText(top, "state", "")),
        Fact("Severity", FieldText(top, "severity", ""))],
      Props(Some("moreDetails"), Some(h.isVisible), None, []))
  }

  /** The panel around the details, `moreDetailsWrapper`. */
  function DetailsBlock(h: Hints, top: map<string, Json>): Element
    requires IncidentIsDict(top)
  {
    Container([DetailFacts(h, top)], Props(Some("moreDetailsWrapper"), Some(h.isVisible), None, [("style", "emphasis")]))
  }

  /** The two link buttons: the incident page and the runbook. */
  function LinkButtons(top: map<string, Json>, runbookUrl: Option<string>): Element
    requires IncidentIsDict(top)
  {
    ActionSet(
      [ OpenUrl("View Alert Incident", "Open the google alert incident page", "positive", FieldText(top, "url", "")),
        OpenUrl("Read The Runbook", "Open the operations runbook page", "positive", RunbookLink(runbookUrl))],
      Plain([]))
  }

  function LinksBlock(top: map<string, Json>, runbookUrl: Option<string>): Element
    requires IncidentIsDict(top)
  {
    Container([LinkButtons(top, runbookUrl)],
      Plain([("horizontalAlignment", "Center"), ("verticalContentAlignment", "Center"), ("spacing", "Large")]))
  }

  /** The whole webhook document `post_data_to_teams` sends for a decoded
      record `top` and the configured runbook URL. */
  function RenderCard(top: map<string, Json>, runbookUrl: Option<string>): Message
    requires IncidentIsDict(top)
  {
    var h := HintsOf(top);
    Message("message", "Teams webhook adaptive card json",
      [Attachment(AdaptiveContentType,
         AdaptiveCard("http://adaptivecards.io/schemas/adaptive-card.json", "1.5",
           [ HeaderBlock(h), PolicyBlock(h, top), ConditionBlock(h, top),
             ToggleBlock(h), DetailsBlock(h, top), LinksBlock(top, runbookUrl)]))])
  }
}

=== FILE: render_facts.dfy ===
/** What every card built by `post_data_to_teams` looks like, whatever the
    decoded record holds: the fixed envelope, the rendering hints applied
    everywhere they are used, the incident fields with their defaults, and
    toggle buttons whose targets are all elements of the same card. */
module RenderFacts {
  import opened Wrappers
  import opened Json
  import opened Card
  import opened Render

  /** The elements of the template, each before its descendants. */
  function TemplateElements(h: Hints, top: map<string, Json>, runbookUrl: Option<string>): seq<Element>
    requires IncidentIsDict(top)
  {
    HeaderElements(h) + PolicyElements(h, top) + ConditionElements(h, top)
    + ToggleElements(h) + DetailsElements(h, top) + LinksElements(top, runbookUrl)
  }

  function HeaderElements(h: Hints): seq<Element> {
    [HeaderBlock(h), Title(h)]
  }

  function PolicyElements(h: Hints, top: map<string, Json>): seq<Element>
    requires IncidentIsDict(top)
  {
    [PolicyBlock(h, top), PolicyLine(h, top)]
  }

  function ConditionElements(h: Hints, top: map<string, Json>): seq<Element>
    requires IncidentIsDict(top)
  {
    [ConditionBlock(h, top), ConditionLine(h, top), SummaryLine(h, top), ValueBox(h, top), ValueFacts(top)]
  }

  function ToggleElements(h: Hints): seq<Element> {
    [ ToggleBlock(h), ToggleRow(h), LabelColumn(h), MoreLabel(h),
      ExpandColumn(), ExpandButton(), CollapseColumn(h), CollapseButton(h)]
  }

  function DetailsElements(h: Hints, top: map<string, Json>): seq<Element>
    requires IncidentIsDict(top)
  {
    [DetailsBlock(h, top), DetailFacts(h, top)]
  }

  function LinksElements(top: map<string, Json>, runbookUrl: Option<string>): seq<Element>
    requires IncidentIsDict(top)
  {
    [LinksBlock(top, runbookUrl), LinkButtons(top, runbookUrl)]
  }

  /** The texts the template displays, in document order. */
  function TemplateTexts(top: map<string, Json>, runbookUrl: Option<string>): seq<Text>
    requires IncidentIsDict(top)
  {
    [Lit("Google Cloud Alerts")]
    + [FieldText(top, "policy_name", "**")]
    + [ FieldText(top, "condition_name", "_"), FieldText(top, "summary", ""),
        FieldText(top, "threshold_value", ""), FieldText(top, "observed_value", "")]
    + [Lit("More Details")]
    + DetailTexts(top)
    + [FieldText(top, "url", ""), RunbookLink(runbookUrl)]
  }

  function DetailTexts(top: map<string, Json>): seq<Text>
    requires IncidentIsDict(top)
  {
    [ FieldText(top, "scoping_project_id", ""), FieldText(top, "scoping_project_number", ""),
      FieldText(top, "incident_id", ""), FieldText(top, "state", ""), FieldText(top, "severity", "")]
  }

  lemma HeaderSubtree(h: Hints)
    ensures Subtree(HeaderBlock(h)) == [HeaderBlock(h), Title(h)]
  {
    FlattenOne(Title(h));
  }

  lemma PolicySubtree(h: Hints, top: map<string, Json>)
    requires IncidentIsDict(top)
    ensures Subtree(PolicyBlock(h, top)) == [PolicyBlock(h, top), PolicyLine(h, top)]
  {
    FlattenOne(PolicyLine(h, top));
  }

  lemma ConditionSubtree(h: Hints, top: map<string, Json>)
    requires IncidentIsDict(top)
    ensures Subtree(ConditionBlock(h, top))
         == [ConditionBlock(h, top), ConditionLine(h, top), SummaryLine(h, top), ValueBox(h, top), ValueFacts(top)]
  {
    FlattenOne(ValueFacts(top));
    FlattenOne(ValueBox(h, top));
    FlattenCons(SummaryLine(h, top), [ValueBox(h, top)]);
    FlattenCons(ConditionLine(h, top), [SummaryLine(h, top), ValueBox(h, top)]);
  }

  lemma ToggleRowSubtree(h: Hints)
    ensures Subtree(ToggleRow(h))
         == [ToggleRow(h), LabelColumn(h), MoreLabel(h), ExpandColumn(), ExpandButton(), CollapseColumn(h), CollapseButton(h)]
  {
    FlattenOne(MoreLabel(h));
    FlattenOne(ExpandButton());
    FlattenOne(CollapseButton(h));
    FlattenOne(CollapseColumn(h));
    FlattenCons(ExpandColumn(), [CollapseColumn(h)]);
    FlattenCons(LabelColumn(h), [ExpandColumn(), CollapseColumn(h)]);
  }

  lemma ToggleSubtree(h: Hints)
    ensures Subtree(ToggleBlock(h))
         == [ToggleBlock(h), ToggleRow(h), LabelColumn(h), MoreLabel(h), ExpandColumn(), ExpandButton(), CollapseColumn(h), CollapseButton(h)]
  {
    FlattenOne(ToggleRow(h));
    ToggleRowSubtree(h);
  }

  lemma DetailsSubtree(h: Hints, top: map<string, Json>)
    requires IncidentIsDict(top)
    ensures Subtree(DetailsBlock(h, top)) == [DetailsBlock(h, top), DetailFacts(h, top)]
  {
    FlattenOne(DetailFacts(h, top));
  }

  lemma LinksSubtree(top: map<string, Json>, runbookUrl: Option<string>)
    requires IncidentIsDict(top)
    ensures Subtree(LinksBlock(top, runbookUrl)) == [LinksBlock(top, runbookUrl), LinkButtons(top, runbookUrl)]
  {
    FlattenOne(LinkButtons(top, runbookUrl));
  }

  lemma FlattenThree(b1: Element, b2: Element, b3: Element)
    ensures Flatten([b1, b2, b3]) == Subtree(b1) + Subtree(b2) + Subtree(b3)
  {
    FlattenOne(b3);
    assert [b2, b3] == [b2] + [b3];
    FlattenCons(b2, [b3]);
    assert [b1, b2, b3] == [b1] + [b2, b3];
    FlattenCons(b1, [b2, b3]);
  }

  lemma FlattenSix(b1: Element, b2: Element, b3: Element, b4: Element, b5: Element, b6: Element)
    ensures Flatten([b1, b2, b3, b4, b5, b6])
         == Subtree(b1) + Subtree(b2) + Subtree(b3) + Subtree(b4) + Subtree(b5) + Subtree(b6)
  {
    assert [b1, b2, b3, b4, b5, b6] == [b1, b2, b3] + [b4, b5, b6];
    FlattenAppend([b1, b2, b3], [b4, b5, b6]);
    FlattenThree(b1, b2, b3);
    FlattenThree(b4, b5, b6);
  }

  /** Walking the rendered card visits exactly the template's elements. */
  lemma ElementsOfCard(top: map<string, Json>, runbookUrl: Option<string>)
    requires IncidentIsDict(top)
    ensures Elements(RenderCard(top, runbookUrl)) == TemplateElements(HintsOf(top), top, runbookUrl)
  {
    var h := HintsOf(top);
    HeaderSubtree(h);
    PolicySubtree(h, top);
    ConditionSubtree(h, top);
    ToggleSubtree(h);
    DetailsSubtree(h, top);
    LinksSubtree(top, runbookUrl);
    FlattenSix(HeaderBlock(h), PolicyBlock(h, top), ConditionBlock(h, top),
      ToggleBlock(h), DetailsBlock(h, top), LinksBlock(top, runbookUrl));
  }

  /** The envelope is the same for every record: a "message" with exactly one
      adaptive-card attachment, whose last body row holds the two link
      buttons, the second pointing at the configured runbook. */
  lemma FixedEnvelope(top: map<string, Json>, runbookUrl: Option<string>)
    requires IncidentIsDict(top)
    ensures var m := RenderCard(top, runbookUrl);
      && m.kind == "message"
      && |m.attachments| == 1
      && m.attachments[0].contentType == "application/vnd.microsoft.card.adaptive"
      && var body := m.attachments[0].content.body;
         && |body| == 6
         && body[5].Container? && |body[5].items| == 1
         && var row := body[5].items[0];
            && row.ActionSet? && |row.actions| == 2
            && row.actions[0].OpenUrl? && row.actions[0].title == "View Alert Incident"
            && row.actions[0].url == Fmt("", Field(top, "url"), "")
            && row.actions[1].OpenUrl? && row.actions[1].title == "Read The Runbook"
            && row.actions[1].url == Val(if runbookUrl.Some? then JStr(runbookUrl.value) else JNull)
  {
  }

  /** Every text block wraps according to the record's `wrap` hint (true by default). */
  lemma WrapOnEveryTextBlock(top: map<string, Json>, runbookUrl: Option<string>)
    requires IncidentIsDict(top)
    ensures forall e :: e in Elements(RenderCard(top, runbookUrl)) && e.TextBlock? ==> e.wrap == HintsOf(top).wrap
  {
    ElementsOfCard(top, runbookUrl);
  }

  lemma TemplateSeparators(h: Hints, top: map<string, Json>, runbookUrl: Option<string>)
    requires IncidentIsDict(top)
    ensures forall e :: e in TemplateElements(h, top, runbookUrl) && e.props.separator.Some? ==>
              e.props.separator == Some(h.separator)
  {
    forall e | e in TemplateElements(h, top, runbookUrl) && e.props.separator.Some?
      ensures e.props.separator == Some(h.separator)
    {
      if e in HeaderElements(h) {
      } else if e in PolicyElements(h, top) {
      } else if e in ConditionElements(h, top) {
      } else if e in ToggleElements(h) {
      }
    }
  }

  /** Exactly four elements set a separator, and every separator is the
      record's `separator` hint (true by default). */
  lemma SeparatorEverywhere(top: map<string, Json>, runbookUrl: Option<string>)
    requires IncidentIsDict(top)
    ensures forall e :: e in Elements(RenderCard(top, runbookUrl)) && e.props.separator.Some? ==>
              e.props.separator == Some(HintsOf(top).separator)
    ensures var sep := HintsOf(top).separator;
      Separators(RenderCard(top, runbookUrl)) == [sep, sep, sep, sep]
  {
    var m, h := RenderCard(top, runbookUrl), HintsOf(top);
    ElementsOfCard(top, runbookUrl);
    TemplateSeparators(h, top, runbookUrl);
    CardSeparatorList(m, h, top, runbookUrl);
  }

  /** The four containers that set the separator: the header row, the policy
      row, the threshold box inside the condition row, and the toggle row. */
  lemma SeparatorRows(top: map<string, Json>, runbookUrl: Option<string>)
    requires IncidentIsDict(top)
    ensures var body := RenderCard(top, runbookUrl).attachments[0].content.body;
      && body[0].props.separator == Some(HintsOf(top).separator)
      && body[1].props.separator == Some(HintsOf(top).separator)
      && body[2].items[2].props.separator == Some(HintsOf(top).separator)
      && body[3].props.separator == Some(HintsOf(top).separator)
  {
  }

  lemma CardSeparatorList(m: Message, h: Hints, top: map<string, Json>, runbookUrl: Option<string>)
    requires IncidentIsDict(top)
    requires Elements(m) == TemplateElements(h, top, runbookUrl)
    ensures Separators(m) == [h.separator, h.separator, h.separator, h.separator]
  {
    TemplateSeparatorList(h, top, runbookUrl);
  }

  lemma TemplateSeparatorList(h: Hints, top: map<string, Json>, runbookUrl: Option<string>)
    requires IncidentIsDict(top)
    ensures Collect(TemplateElements(h, top, runbookUrl), SeparatorsOf)
         == [h.separator, h.separator, h.separator, h.separator]
  {
    var pick := SeparatorsOf;
    CollectTemplate(h, top, runbookUrl, pick);
    CollectTwo(HeaderBlock(h), Title(h), pick);
    CollectTwo(PolicyBlock(h, top), PolicyLine(h, top), pick);
    CollectFive(ConditionBlock(h, top), ConditionLine(h, top), SummaryLine(h, top), ValueBox(h, top), ValueFacts(top), pick);
    CollectEight(ToggleBlock(h), ToggleRow(h), LabelColumn(h), MoreLabel(h),
      ExpandColumn(), ExpandButton(), CollapseColumn(h), CollapseButton(h), pick);
    CollectTwo(DetailsBlock(h, top), DetailFacts(h, top), pick);
    CollectTwo(LinksBlock(top, runbookUrl), LinkButtons(top, runbookUrl), pick);
  }

  lemma TemplateVisibility(h: Hints, top: map<string, Json>, runbookUrl: Option<string>)
    requires IncidentIsDict(top)
    ensures forall e :: e in TemplateElements(h, top, runbookUrl) && e.props.isVisible.Some? ==>
              e == CollapseButton(h) || e == DetailFacts(h, top) || e == DetailsBlock(h, top)
  {
    forall e | e in TemplateElements(h, top, runbookUrl) && e.props.isVisible.Some?
      ensures e == CollapseButton(h) || e == DetailFacts(h, top) || e == DetailsBlock(h, top)
    {
      if e in HeaderElements(h) {
      } else if e in PolicyElements(h, top) {
      } else if e in ConditionElements(h, top) {
      } else if e in ToggleElements(h) {
      } else if e in DetailsElements(h, top) {
      } else {
      }
    }
  }

  /** The three collapsible elements, and only they, set a visibility, and
      all use the record's `isVisible` hint (false by default). */
  lemma CollapsiblesShareVisibility(top: map<string, Json>, runbookUrl: Option<string>)
    requires IncidentIsDict(top)
    ensures var m := RenderCard(top, runbookUrl);
      && (forall e :: e in Elements(m) && e.props.isVisible.Some? ==>
            && e.props.isVisible == Some(HintsOf(top).isVisible)
            && (e.props.id == Some("chevronUp") || e.props.id == Some("moreDetails") || e.props.id == Some("moreDetailsWrapper")))
      && Collapses(m, "chevronUp") && Collapses(m, "moreDetails") && Collapses(m, "moreDetailsWrapper")
  {
    ElementsOfCard(top, runbookUrl);
    TemplateCollapsibles(RenderCard(top, runbookUrl), HintsOf(top), top, runbookUrl);
  }

  lemma TemplateCollapsibles(m: Message, h: Hints, top: map<string, Json>, runbookUrl: Option<string>)
    requires IncidentIsDict(top)
    requires Elements(m) == TemplateElements(h, top, runbookUrl)
    ensures forall e :: e in Elements(m) && e.props.isVisible.Some? ==>
            && e.props.isVisible == Some(h.isVisible)
            && (e.props.id == Some("chevronUp") || e.props.id == Some("moreDetails") || e.props.id == Some("moreDetailsWrapper"))
    ensures Collapses(m, "chevronUp") && Collapses(m, "moreDetails") && Collapses(m, "moreDetailsWrapper")
  {
    var elems := TemplateElements(h, top, runbookUrl);
    var up, facts, panel := CollapseButton(h), DetailFacts(h, top), DetailsBlock(h, top);
    TemplateVisibility(h, top, runbookUrl);
    assert up.props.id == Some("chevronUp") && up.props.isVisible == Some(h.isVisible);
    assert facts.props.id == Some("moreDetails") && facts.props.isVisible == Some(h.isVisible);
    assert panel.props.id == Some("moreDetailsWrapper") && panel.props.isVisible == Some(h.isVisible);
    forall e | e in Elements(m) && e.props.isVisible.Some?
      ensures e.props.isVisible == Some(h.isVisible)
      ensures e.props.id == Some("chevronUp") || e.props.id == Some("moreDetails") || e.props.id == Some("moreDetailsWrapper")
    {
      assert e == up || e == facts || e == panel;
    }
    assert up in ToggleElements(h) && up in elems;
    assert facts in DetailsElements(h, top) && facts in elems;
    assert panel in DetailsElements(h, top) && panel in elems;
  }

  // ---------------------------------------------------------------------
  // Document-order listings of the template: toggles, facts, text blocks.
  // ---------------------------------------------------------------------

  lemma CollectTwo<T>(a: Element, b: Element, pick: Element -> seq<T>)
    ensures Collect([a, b], pick) == pick(a) + pick(b)
  {
    assert [b] == [b] + [];
    CollectCons(b, [], pick);
    assert [a, b] == [a] + [b];
    CollectCons(a, [b], pick);
  }

  lemma CollectThree<T>(a: Element, b: Element, c: Element, pick: Element -> seq<T>)
    ensures Collect([a, b, c], pick) == pick(a) + pick(b) + pick(c)
  {
    CollectTwo(b, c, pick);
    assert [a, b, c] == [a] + [b, c];
    CollectCons(a, [b, c], pick);
  }

  lemma CollectFive<T>(a: Element, b: Element, c: Element, d: Element, e: Element, pick: Element -> seq<T>)
    ensures Collect([a, b, c, d, e], pick) == pick(a) + pick(b) + pick(c) + pick(d) + pick(e)
  {
    CollectTwo(a, b, pick);
    CollectThree(c, d, e, pick);
    assert [a, b, c, d, e] == [a, b] + [c, d, e];
    CollectAppend([a, b], [c, d, e], pick);
  }

  lemma CollectEight<T>(a: Element, b: Element, c: Element, d: Element, e: Element, f: Element, g: Element, k: Element,
                        pick: Element -> seq<T>)
    ensures Collect([a, b, c, d, e, f, g, k], pick)
         == pick(a) + pick(b) + pick(c) + pick(d) + pick(e) + pick(f) + pick(g) + pick(k)
  {
    CollectThree(a, b, c, pick);
    CollectThree(d, e, f, pick);
    CollectTwo(g, k, pick);
    assert [a, b, c, d, e, f, g, k] == [a, b, c] + [d, e, f] + [g, k];
    CollectAppend([a, b, c], [d, e, f], pick);
    CollectAppend([a, b, c] + [d, e, f], [g, k], pick);
  }

  lemma CollectTemplate<T>(h: Hints, top: map<string, Json>, runbookUrl: Option<string>, pick: Element -> seq<T>)
    requires IncidentIsDict(top)
    ensures Collect(TemplateElements(h, top, runbookUrl), pick)
         == Collect(HeaderElements(h), pick) + Collect(PolicyElements(h, top), pick)
            + Collect(ConditionElements(h, top), pick) + Collect(ToggleElements(h), pick)
            + Collect(DetailsElements(h, top), pick) + Collect(LinksElements(top, runbookUrl), pick)
  {
    var hd, pol, cnd := HeaderElements(h), PolicyElements(h, top), ConditionElements(h, top);
    var tgl, det, lnk := ToggleElements(h), DetailsElements(h, top), LinksElements(top, runbookUrl);
    CollectAppend(hd, pol, pick);
    CollectAppend(hd + pol, cnd, pick);
    CollectAppend(hd + pol + cnd, tgl, pick);
    CollectAppend(hd + pol + cnd + tgl, det, pick);
    CollectAppend(hd + pol + cnd + tgl + det, lnk, pick);
  }

  lemma ActionTogglesOne(a: Action)
    ensures ActionToggles([a]) == if a.ToggleVisibility? then [a.targetElements] else []
  {
    assert [a][1..] == [];
  }

  lemma ActionTogglesTwo(a: Action, b: Action)
    ensures ActionToggles([a, b])
         == (if a.ToggleVisibility? then [a.targetElements] else []) + (if b.ToggleVisibility? then [b.targetElements] else [])
  {
    assert [a, b][1..] == [b];
    ActionTogglesOne(b);
  }

  lemma TemplateToggleList(h: Hints, top: map<string, Json>, runbookUrl: Option<string>)
    requires IncidentIsDict(top)
    ensures Collect(TemplateElements(h, top, runbookUrl), ToggleTargetsOf) == [ExpandTargets, CollapseTargets]
  {
    var pick := ToggleTargetsOf;
    CollectTemplate(h, top, runbookUrl, pick);
    CollectTwo(HeaderBlock(h), Title(h), pick);
    CollectTwo(PolicyBlock(h, top), PolicyLine(h, top), pick);
    CollectFive(ConditionBlock(h, top), ConditionLine(h, top), SummaryLine(h, top), ValueBox(h, top), ValueFacts(top), pick);
    CollectEight(ToggleBlock(h), ToggleRow(h), LabelColumn(h), MoreLabel(h),
      ExpandColumn(), ExpandButton(), CollapseColumn(h), CollapseButton(h), pick);
    CollectTwo(DetailsBlock(h, top), DetailFacts(h, top), pick);
    CollectTwo(LinksBlock(top, runbookUrl), LinkButtons(top, runbookUrl), pick);
    ActionTogglesOne(ExpandButton().actions[0]);
    ActionTogglesOne(CollapseButton(h).actions[0]);
    ActionTogglesTwo(LinkButtons(top, runbookUrl).actions[0], LinkButtons(top, runbookUrl).actions[1]);
  }

  lemma TemplateFactList(h: Hints, top: map<string, Json>, runbookUrl: Option<string>)
    requires IncidentIsDict(top)
    ensures Collect(TemplateElements(h, top, runbookUrl), FactsOf) == ValueFacts(top).facts + DetailFacts(h, top).facts
  {
    var pick := FactsOf;
    CollectTemplate(h, top, runbookUrl, pick);
    CollectTwo(HeaderBlock(h), Title(h), pick);
    CollectTwo(PolicyBlock(h, top), PolicyLine(h, top), pick);
    CollectFive(ConditionBlock(h, top), ConditionLine(h, top), SummaryLine(h, top), ValueBox(h, top), ValueFacts(top), pick);
    CollectEight(ToggleBlock(h), ToggleRow(h), LabelColumn(h), MoreLabel(h),
      ExpandColumn(), ExpandButton(), CollapseColumn(h), CollapseButton(h), pick);
    CollectTwo(DetailsBlock(h, top), DetailFacts(h, top), pick);
    CollectTwo(LinksBlock(top, runbookUrl), LinkButtons(top, runbookUrl), pick);
  }

  lemma TemplateTextBlockList(h: Hints, top: map<string, Json>, runbookUrl: Option<string>)
    requires IncidentIsDict(top)
    ensures Collect(TemplateElements(h, top, runbookUrl), TextBlockOf)
         == [ Lit("Google Cloud Alerts"), FieldText(top, "policy_name", "**"),
              FieldText(top, "condition_name", "_"), FieldText(top, "summary", ""), Lit("More Details")]
  {
    var pick := TextBlockOf;
    CollectTemplate(h, top, runbookUrl, pick);
    CollectTwo(HeaderBlock(h), Title(h), pick);
    CollectTwo(PolicyBlock(h, top), PolicyLine(h, top), pick);
    CollectFive(ConditionBlock(h, top), ConditionLine(h, top), SummaryLine(h, top), ValueBox(h, top), ValueFacts(top), pick);
    CollectEight(ToggleBlock(h), ToggleRow(h), LabelColumn(h), MoreLabel(h),
      ExpandColumn(), ExpandButton(), CollapseColumn(h), CollapseButton(h), pick);
    CollectTwo(DetailsBlock(h, top), DetailFacts(h, top), pick);
    CollectTwo(LinksBlock(top, runbookUrl), LinkButtons(top, runbookUrl), pick);
  }

  /** The card has exactly two toggle actions, expand then collapse; they
      target the same four ids, differing only in the order of the last two. */
  lemma TogglesTargetCardElements(top: map<string, Json>, runbookUrl: Option<string>)
    requires IncidentIsDict(top)
    ensures var m := RenderCard(top, runbookUrl);
      Toggles(m) == [ExpandTargets, CollapseTargets]
    ensures ExpandTargets == ["moreDetails", "moreDetailsWrapper", "chevronUp", "chevronDown"]
    ensures ExpandTargets[..2] == CollapseTargets[..2]
    ensures ExpandTargets[2] == CollapseTargets[3] && ExpandTargets[3] == CollapseTargets[2]
  {
    var m, h := RenderCard(top, runbookUrl), HintsOf(top);
    ElementsOfCard(top, runbookUrl);
    CardToggleList(m, h, top, runbookUrl);
  }

  lemma CardToggleList(m: Message, h: Hints, top: map<string, Json>, runbookUrl: Option<string>)
    requires IncidentIsDict(top)
    requires Elements(m) == TemplateElements(h, top, runbookUrl)
    ensures Toggles(m) == [ExpandTargets, CollapseTargets]
  {
    TemplateToggleList(h, top, runbookUrl);
  }

  /** Each id a toggle targets belongs to exactly one element of the card. */
  lemma ToggleTargetsExist(top: map<string, Json>, runbookUrl: Option<string>)
    requires IncidentIsDict(top)
    ensures var m := RenderCard(top, runbookUrl);
      && HasId(m, "moreDetails") && UniqueId(m, "moreDetails")
      && HasId(m, "moreDetailsWrapper") && UniqueId(m, "moreDetailsWrapper")
      && HasId(m, "chevronUp") && UniqueId(m, "chevronUp")
      && HasId(m, "chevronDown") && UniqueId(m, "chevronDown")
  {
    ElementsOfCard(top, runbookUrl);
    TemplateIdsPresent(RenderCard(top, runbookUrl), HintsOf(top), top, runbookUrl);
    TemplateTargets(RenderCard(top, runbookUrl), HintsOf(top), top, runbookUrl);
  }

  /** The chevrons sit in the toggle row and nowhere else; the details panel
      and its facts sit in the details container and nowhere else. */
  lemma TemplateTargets(m: Message, h: Hints, top: map<string, Json>, runbookUrl: Option<string>)
    requires IncidentIsDict(top)
    requires Elements(m) == TemplateElements(h, top, runbookUrl)
    ensures UniqueId(m, "moreDetails") && UniqueId(m, "moreDetailsWrapper")
    ensures UniqueId(m, "chevronUp") && UniqueId(m, "chevronDown")
  {
    var hd, pol, cnd := HeaderElements(h), PolicyElements(h, top), ConditionElements(h, top);
    var tgl, det, lnk := ToggleElements(h), DetailsElements(h, top), LinksElements(top, runbookUrl);
    assert Elements(m) == (hd + pol + cnd) + tgl + (det + lnk);
    ChevronUnique(hd + pol + cnd, tgl, det + lnk, h, top, runbookUrl, "chevronDown");
    ChevronUnique(hd + pol + cnd, tgl, det + lnk, h, top, runbookUrl, "chevronUp");
    assert Elements(m) == (hd + pol + cnd + tgl) + det + lnk;
    DetailsUnique(hd + pol + cnd + tgl, det, lnk, h, top, runbookUrl, "moreDetails");
    DetailsUnique(hd + pol + cnd + tgl, det, lnk, h, top, runbookUrl, "moreDetailsWrapper");
  }

  lemma ChevronUnique(before: seq<Element>, tgl: seq<Element>, after: seq<Element>,
                      h: Hints, top: map<string, Json>, runbookUrl: Option<string>, id: string)
    requires IncidentIsDict(top)
    requires before == HeaderElements(h) + PolicyElements(h, top) + ConditionElements(h, top)
    requires tgl == ToggleElements(h) && after == DetailsElements(h, top) + LinksElements(top, runbookUrl)
    requires id == "chevronDown" || id == "chevronUp"
    ensures AtMostOneCarries(before + tgl + after, id)
  {
    NoneCarriesAppend(HeaderElements(h), PolicyElements(h, top), id);
    NoneCarriesAppend(HeaderElements(h) + PolicyElements(h, top), ConditionElements(h, top), id);
    NoneCarriesAppend(DetailsElements(h, top), LinksElements(top, runbookUrl), id);
    AtMostOneAround(before, tgl, after, id);
  }

  lemma DetailsUnique(before: seq<Element>, det: seq<Element>, after: seq<Element>,
                      h: Hints, top: map<string, Json>, runbookUrl: Option<string>, id: string)
    requires IncidentIsDict(top)
    requires before == HeaderElements(h) + PolicyElements(h, top) + ConditionElements(h, top) + ToggleElements(h)
    requires det == DetailsElements(h, top) && after == LinksElements(top, runbookUrl)
    requires id == "moreDetails" || id == "moreDetailsWrapper"
    ensures AtMostOneCarries(before + det + after, id)
  {
    NoneCarriesAppend(HeaderElements(h), PolicyElements(h, top), id);
    NoneCarriesAppend(HeaderElements(h) + PolicyElements(h, top), ConditionElements(h, top), id);
    NoneCarriesAppend(HeaderElements(h) + PolicyElements(h, top) + ConditionElements(h, top), ToggleElements(h), id);
    AtMostOneAround(before, det, after, id);
  }

  lemma TemplateIdsPresent(m: Message, h: Hints, top: map<string, Json>, runbookUrl: Option<string>)
    requires IncidentIsDict(top)
    requires Elements(m) == TemplateElements(h, top, runbookUrl)
    ensures HasId(m, "chevronDown") && HasId(m, "chevronUp")
    ensures HasId(m, "moreDetails") && HasId(m, "moreDetailsWrapper")
  {
    var elems := TemplateElements(h, top, runbookUrl);
    var down, up, facts, panel := ExpandButton(), CollapseButton(h), DetailFacts(h, top), DetailsBlock(h, top);
    assert down in ToggleElements(h) && up in ToggleElements(h);
    assert facts in DetailsElements(h, top) && panel in DetailsElements(h, top);
    assert down in elems && up in elems && facts in elems && panel in elems;
    assert down.props.id == Some("chevronDown") && up.props.id == Some("chevronUp");
    assert facts.props.id == Some("moreDetails") && panel.props.id == Some("moreDetailsWrapper");
  }

  /** The texts an element sequence displays are all among `texts`. */
  ghost predicate ShowsOnly(es: seq<Element>, texts: seq<Text>) {
    forall e, t :: e in es && ShowsIn(e, t) ==> t in texts
  }

  lemma HeaderShowsOnly(h: Hints, top: map<string, Json>, runbookUrl: Option<string>)
    requires IncidentIsDict(top)
    ensures ShowsOnly(HeaderElements(h), TemplateTexts(top, runbookUrl))
  {
  }

  lemma PolicyShowsOnly(h: Hints, top: map<string, Json>, runbookUrl: Option<string>)
    requires IncidentIsDict(top)
    ensures ShowsOnly(PolicyElements(h, top), TemplateTexts(top, runbookUrl))
  {
  }

  lemma ConditionShowsOnly(h: Hints, top: map<string, Json>, runbookUrl: Option<string>)
    requires IncidentIsDict(top)
    ensures ShowsOnly(ConditionElements(h, top), TemplateTexts(top, runbookUrl))
  {
  }

  lemma ToggleShowsOnly(h: Hints, top: map<string, Json>, runbookUrl: Option<string>)
    requires IncidentIsDict(top)
    ensures ShowsOnly(ToggleElements(h), TemplateTexts(top, runbookUrl))
  {
  }

  lemma DetailsShowsOnly(h: Hints, top: map<string, Json>, runbookUrl: Option<string>)
    requires IncidentIsDict(top)
    ensures ShowsOnly(DetailsElements(h, top), TemplateTexts(top, runbookUrl))
  {
  }

  lemma LinksShowsOnly(h: Hints, top: map<string, Json>, runbookUrl: Option<string>)
    requires IncidentIsDict(top)
    ensures ShowsOnly(LinksElements(top, runbookUrl), TemplateTexts(top, runbookUrl))
  {
  }

  lemma TemplateShownTexts(h: Hints, top: map<string, Json>, runbookUrl: Option<string>)
    requires IncidentIsDict(top)
    ensures ShowsOnly(TemplateElements(h, top, runbookUrl), TemplateTexts(top, runbookUrl))
  {
    HeaderShowsOnly(h, top, runbookUrl);
    PolicyShowsOnly(h, top, runbookUrl);
    ConditionShowsOnly(h, top, runbookUrl);
    ToggleShowsOnly(h, top, runbookUrl);
    DetailsShowsOnly(h, top, runbookUrl);
    LinksShowsOnly(h, top, runbookUrl);
  }

  /** Every one of `texts` is displayed by some element of `es`. */
  ghost predicate ShowsAll(es: seq<Element>, texts: seq<Text>) {
    forall t :: t in texts ==> exists e :: e in es && ShowsIn(e, t)
  }

  lemma ConditionShowsAll(h: Hints, top: map<string, Json>)
    requires IncidentIsDict(top)
    ensures ShowsAll(ConditionElements(h, top),
              [ FieldText(top, "condition_name", "_"), FieldText(top, "summary", ""),
                FieldText(top, "threshold_value", ""), FieldText(top, "observed_value", "")])
  {
    var es := ConditionElements(h, top);
    var vf := ValueFacts(top).facts;
    assert ConditionLine(h, top) in es && SummaryLine(h, top) in es && ValueFacts(top) in es;
    assert vf[0] in vf && vf[0].value == FieldText(top, "threshold_value", "");
    assert vf[1] in vf && vf[1].value == FieldText(top, "observed_value", "");
    assert ShowsIn(ValueFacts(top), FieldText(top, "threshold_value", ""));
    assert ShowsIn(ValueFacts(top), FieldText(top, "observed_value", ""));
    assert ShowsIn(ConditionLine(h, top), FieldText(top, "condition_name", "_"));
    assert ShowsIn(SummaryLine(h, top), FieldText(top, "summary", ""));
  }

  lemma DetailsShowsAll(h: Hints, top: map<string, Json>)
    requires IncidentIsDict(top)
    ensures ShowsAll(DetailsElements(h, top), DetailTexts(top))
  {
    var df := DetailFacts(h, top).facts;
    assert DetailFacts(h, top) in DetailsElements(h, top);
    forall i | 0 <= i < 5
      ensures ShowsIn(DetailFacts(h, top), DetailTexts(top)[i])
    {
      assert df[i] in df && df[i].value == DetailTexts(top)[i];
    }
  }

  lemma LinksShowsAll(top: map<string, Json>, runbookUrl: Option<string>)
    requires IncidentIsDict(top)
    ensures ShowsAll(LinksElements(top, runbookUrl), [FieldText(top, "url", ""), RunbookLink(runbookUrl)])
  {
    var lb := LinkButtons(top, runbookUrl).actions;
    assert LinkButtons(top, runbookUrl) in LinksElements(top, runbookUrl);
    assert lb[0] in lb && lb[0].url == FieldText(top, "url", "");
    assert lb[1] in lb && lb[1].url == RunbookLink(runbookUrl);
    assert ShowsIn(LinkButtons(top, runbookUrl), FieldText(top, "url", ""));
    assert ShowsIn(LinkButtons(top, runbookUrl), RunbookLink(runbookUrl));
  }

  lemma TemplateTextsAreShown(h: Hints, top: map<string, Json>, runbookUrl: Option<string>)
    requires IncidentIsDict(top)
    ensures ShowsAll(TemplateElements(h, top, runbookUrl), TemplateTexts(top, runbookUrl))
  {
    var elems := TemplateElements(h, top, runbookUrl);
    var hd, pol, cnd := HeaderElements(h), PolicyElements(h, top), ConditionElements(h, top);
    var tgl, det, lnk := ToggleElements(h), DetailsElements(h, top), LinksElements(top, runbookUrl);
    var t1, t2 := [Lit("Google Cloud Alerts")], [FieldText(top, "policy_name", "**")];
    var t3 := [ FieldText(top, "condition_name", "_"), FieldText(top, "summary", ""),
                FieldText(top, "threshold_value", ""), FieldText(top, "observed_value", "")];
    var t4, t5, t6 := [Lit("More Details")], DetailTexts(top), [FieldText(top, "url", ""), RunbookLink(runbookUrl)];
    assert TemplateTexts(top, runbookUrl) == t1 + t2 + t3 + t4 + t5 + t6;
    assert Title(h) in hd && ShowsIn(Title(h), t1[0]);
    assert PolicyLine(h, top) in pol && ShowsIn(PolicyLine(h, top), t2[0]);
    assert MoreLabel(h) in tgl && ShowsIn(MoreLabel(h), t4[0]);
    assert ShowsAll(hd, t1) && ShowsAll(pol, t2) && ShowsAll(tgl, t4);
    ConditionShowsAll(h, top);
    DetailsShowsAll(h, top);
    LinksShowsAll(top, runbookUrl);
    ShowsAllWithin(elems, hd, t1);
    ShowsAllWithin(elems, pol, t2);
    ShowsAllWithin(elems, cnd, t3);
    ShowsAllWithin(elems, tgl, t4);
    ShowsAllWithin(elems, det, t5);
    ShowsAllWithin(elems, lnk, t6);
    ShowsAllJoin(elems, t1, t2);
    ShowsAllJoin(elems, t1 + t2, t3);
    ShowsAllJoin(elems, t1 + t2 + t3, t4);
    ShowsAllJoin(elems, t1 + t2 + t3 + t4, t5);
    ShowsAllJoin(elems, t1 + t2 + t3 + t4 + t5, t6);
  }

  lemma ShowsAllWithin(es: seq<Element>, sub: seq<Element>, ts: seq<Text>)
    requires ShowsAll(sub, ts) && forall e :: e in sub ==> e in es
    ensures ShowsAll(es, ts)
  {
  }

  lemma ShowsAllJoin(es: seq<Element>, ts: seq<Text>, us: seq<Text>)
    requires ShowsAll(es, ts) && ShowsAll(es, us)
    ensures ShowsAll(es, ts + us)
  {
  }

  /** The card displays the template's texts and nothing else. */
  lemma ShowsExactlyTemplateTexts(top: map<string, Json>, runbookUrl: Option<string>)
    requires IncidentIsDict(top)
    ensures forall t :: Shows(RenderCard(top, runbookUrl), t) <==> t in TemplateTexts(top, runbookUrl)
  {
    var h := HintsOf(top);
    ElementsOfCard(top, runbookUrl);
    TemplateShownTexts(h, top, runbookUrl);
    TemplateTextsAreShown(h, top, runbookUrl);
  }

  /** Every incident field is displayed, with the template's mark on both
      sides, showing the record's value when the incident has that key and
      "Unknown" otherwise; each field falls back on its own. */
  lemma FieldsDefaultToUnknown(top: map<string, Json>, runbookUrl: Option<string>, i: nat)
    requires IncidentIsDict(top) && i < |Fields|
    ensures var name, mark, m := Fields[i].0, Fields[i].1, RenderCard(top, runbookUrl);
      && ("incident" !in top || name !in top["incident"].fields ==> Shows(m, Fmt(mark, JStr("Unknown"), mark)))
      && ("incident" in top && name in top["incident"].fields ==>
            Shows(m, Fmt(mark, top["incident"].fields[name], mark)))
  {
    var t := FieldText(top, Fields[i].0, Fields[i].1);
    FieldTextListed(top, runbookUrl, i);
    ShowsExactlyTemplateTexts(top, runbookUrl);
    assert Shows(RenderCard(top, runbookUrl), t);
  }

  lemma FieldTextListed(top: map<string, Json>, runbookUrl: Option<string>, i: nat)
    requires IncidentIsDict(top) && i < |Fields|
    ensures FieldText(top, Fields[i].0, Fields[i].1) in TemplateTexts(top, runbookUrl)
  {
    var texts := TemplateTexts(top, runbookUrl);
    var k := [1, 2, 3, 4, 5, 7, 8, 9, 10, 11, 12][i];
    assert texts[k] == FieldText(top, Fields[i].0, Fields[i].1);
  }

  /** A policy name given as a string is displayed between the bold marks. */
  lemma PolicyNameShownBold(top: map<string, Json>, runbookUrl: Option<string>, policy: string)
    requires "incident" in top && top["incident"].JObj?
    requires "policy_name" in top["incident"].fields && top["incident"].fields["policy_name"] == JStr(policy)
    ensures exists t :: Shows(RenderCard(top, runbookUrl), t) && Shown(t) == Some("**" + policy + "**")
  {
    FieldsDefaultToUnknown(top, runbookUrl, 0);
    assert Shown(Fmt("**", JStr(policy), "**")) == Some("**" + policy + "**");
  }

  /** Each fact title of the card with the incident field it displays, in
      document order: the threshold box, then the collapsible details. */
  const FactFields: seq<(string, string)> := [
    ("Threshold", "threshold_value"), ("Observed Value", "observed_value"),
    ("Project", "scoping_project_id"), ("Project Num", "scoping_project_number"),
    ("Incident Id", "incident_id"), ("State", "state"), ("Severity", "severity")]

  /** The card's facts are exactly the seven titled fields, in order, each
      showing the field its title names (or "Unknown"). */
  lemma FactsPairTitlesWithFields(top: map<string, Json>, runbookUrl: Option<string>)
    requires IncidentIsDict(top)
    ensures var fs := FactList(RenderCard(top, runbookUrl));
      && |fs| == |FactFields|
      && forall k :: 0 <= k < |FactFields| ==> fs[k] == Fact(FactFields[k].0, FieldText(top, FactFields[k].1, ""))
  {
    ElementsOfCard(top, runbookUrl);
    TemplateFactList(HintsOf(top), top, runbookUrl);
  }

  /** The card's text blocks, in order: the title, the bold policy name, the
      italic condition name, the summary and the "More Details" label. The
      policy name is the second body row's line; condition and summary are
      the first two lines of the third. */
  lemma TextBlocksInOrder(top: map<string, Json>, runbookUrl: Option<string>)
    requires IncidentIsDict(top)
    ensures var m := RenderCard(top, runbookUrl);
      TextBlocks(m) == [ Lit("Google Cloud Alerts"), FieldText(top, "policy_name", "**"),
                         FieldText(top, "condition_name", "_"), FieldText(top, "summary", ""), Lit("More Details")]
    ensures var body := RenderCard(top, runbookUrl).attachments[0].content.body;
      && body[1].items[0].TextBlock? && body[1].items[0].text == FieldText(top, "policy_name", "**")
      && body[2].items[0].TextBlock? && body[2].items[0].text == FieldText(top, "condition_name", "_")
      && body[2].items[1].TextBlock? && body[2].items[1].text == FieldText(top, "summary", "")
  {
    ElementsOfCard(top, runbookUrl);
    TemplateTextBlockList(HintsOf(top), top, runbookUrl);
  }
}

=== FILE: wrappers.dfy ===
/** Failure-compatible wrappers shared by the alert-relay model. */
module Wrappers {

  /** Python's `None` / a value that may be missing. */
  datatype Option<+T> = None | Some(value: T) {

    /** The wrapped value, or `default` when there is none. */
    function GetOr(default: T): T {
      match this
      case Some(v) => v
      case None => default
    }
  }

  /** The outcome of an operation that can fail with a message, such as a parse. */
  datatype Result<+R> = Success(value: R) | Failure(error: string)
}
